=== FILE: README.md ===
# Game reviews API and catalog search — a Dafny model

This project models the parts of a game-review web application that hold
sequential logic:

- **Review store.** The `/reviews` routes keep a collection of reviews.
  Each review belongs to one user and rates one catalog game from 1 to 10.
  At most one review exists per (user, game) pair.
  - A caller lists their own reviews. The list can be narrowed by a
    case-insensitive search on the game name or slug, and comes newest
    first.
  - Creating a review validates its fields first (400). A second review of
    the same game gives 409.
  - Get, update and delete check in a fixed order: 404 if the review is
    absent, then 403 if another user owns it.
  - An update changes only the rating, description and comment that were
    supplied.
- **Credential store.** The `/auth` routes keep a collection of users whose
  emails are stored lower-cased, trimmed and unique.
  - Register validates, refuses a taken email and stores a bcrypt hash.
  - Login answers an unknown email and a wrong password identically.
  - Forgot-password stores the SHA-256 digest of a random reset token with
    a one-hour expiry.
  - Reset-password accepts the token while the expiry is strictly in the
    future, replaces the hash and clears both reset fields.
  - Session tokens are JSON Web Tokens carrying the user's id and email.
    They expire one hour after issue (section 4.1.4 of RFC 7519).
- **Bearer-token gate.** Every review route sits behind this gate.
  - The token is the second field of the `Authorization` header split on
    single spaces. The scheme word is not checked.
  - A missing token gives 401 and a token that fails verification gives
    403. A valid token sets the caller's id and passes control on exactly
    once.
- **Catalog search.** The game browser's state is one record driven by a
  reducer over a closed set of actions.
  - There are four searches: all games, by genre, by platform and by name.
  - A search either refuses with a fixed message (FETCH_ERROR only) or
    fetches: FETCH_START, then exactly one of FETCH_SUCCESS and FETCH_ERROR.
  - The pager shows at most 1000 pages and hides itself when the total is
    0. On a page change it selects the page and repeats the search the
    filled-in fields point to.

## How the model is organised

- **Foundations.**
  - `Util` holds `Option`, the first-match search `FindIndex` and the reply
    record `Reply(status, body)`.
  - `Text` holds the string functions with JavaScript's meaning: `trim`
    with ECMAScript white space, lower-casing, substring search, and
    `split`/`join` on one character.
  - `Tokens` makes bcrypt, SHA-256 and JWT symbolic. Each is a free
    constructor, so a hash determines its input and a token verifies only
    with the key it was signed with. `SigningKey` is the
    `JWT_SECRET || 'secret'` fallback used by both the issuer and the gate.
- **Server side.**
  - `ReviewSchema` and `UserSchema` are the document records and their
    schema rules, written as datatypes and invariant predicates.
  - `ReviewRoutes.ReviewStore` and `AuthRoutes.UserStore` are classes whose
    `seq` field is the collection. The routes that write are methods with
    `modifies this`. The routes that only read are functions that
    `reads this`. Each store keeps a `Valid()` invariant: the schema rules,
    the unique indexes and fresh ids.
  - `AuthGate` holds the header parsing and the 401/403/pass decision as
    functions. The class `Exchange` is the request and response, and the
    method `Auth` writes to it.
- **Client side.**
  - In `GameContext`, `Reduce` is the reducer and `ReduceAll` folds a trace
    of actions. `PlanSearch` is each search's guard and parameters.
  - The class `Provider` holds the last rendered state, the actions
    dispatched since that render (`pending`) and the requests sent. The
    search callbacks read the rendered state, as React closures do.
  - `Pager` holds the page count, the choice of search to repeat and the
    page-change handler.

Randomness (bcrypt salts, the reset token) and the clock are parameters,
with times in milliseconds. The email validator `isEmail`, the token parser
`decode` and the game catalog are function parameters.

**One consequence shown by `Pager.PageChangeRequestsShownPage`.** A page
change selects the new page, but the search it repeats was built from the
state of the previous render. So the request asks for the page shown before
the click.

**Forgot-password tells whether an email is registered.** It answers 200
to known and unknown emails alike, but only a known email's body carries the
reset token (backend/src/routes/auth.js:86-96).
`AuthRoutes.UserStore.ForgotPassword` states both bodies.

## Model

| member | source | states |
|---|---|---|
| Text.LeadingSpace | backend/src/models/User.js:13 | the count of white-space characters the string starts with: all of them are white space and the next one is not |
| Text.Trim | backend/src/models/User.js:13 | the trimmed string occurs in the input right after its leading white space with only white space after it, and neither starts nor ends with white space; it is empty exactly when the input is all white space |
| Text.TrimValue | backend/src/models/User.js:13 | each character of the trimmed string is the input's character at the same place after the leading white space, and everything after it is white space |
| Text.TrimIdempotent | backend/src/models/User.js:13 | trimming a trimmed string changes nothing |
| Text.Lower | backend/src/models/User.js:19 | the result is lower-case, and a lower-case string is left as it is |
| Text.LowerIdempotent | backend/src/models/User.js:19 | lower-casing twice is lower-casing once |
| Text.TrimLowerValue | backend/src/models/User.js:19-20 | lower-casing then trimming keeps, in place, the lower-cased characters between the leading and the trailing white space |
| Text.LowerTrimCommute | backend/src/models/User.js:19-20 | the `lowercase` and `trim` setters give the same result in either order |
| Text.ContainsIffOccurs | backend/src/routes/reviews.js:19-20 | the substring test holds exactly when the pattern occurs at some position of the text |
| Text.Split | backend/src/middleware/auth.js:11 | `split(' ')` yields at least one field, no field contains the separator, and there is exactly one field iff the separator does not occur |
| Text.JoinSplit | backend/src/middleware/auth.js:11 | joining the fields of a split with the separator gives back the string |
| Text.SplitJoin | backend/src/middleware/auth.js:11 | splitting a join of separator-free fields gives back the fields |
| Text.SplitAfterWord | backend/src/middleware/auth.js:11 | a separator-free first word followed by the separator is the first field, and the rest splits on its own |
| Tokens.CompareHashed | backend/src/routes/auth.js:66 | `bcrypt.compare` accepts exactly the password the hash was made from, whatever the salt (the 72-byte truncation is left out) |
| Tokens.SigningKey | backend/src/routes/auth.js:18 | the key is the configured secret when it is set and non-empty, otherwise "secret"; it is never empty |
| Tokens.SignForOneHour | backend/src/routes/auth.js:16-20 | the token carries the id and email, is signed with the key, and its `exp` is its issue second plus 3600 |
| Tokens.Verify | backend/src/middleware/auth.js:15-18 | verification succeeds iff the token was signed with this key and the clock's second is before `exp`; it then yields the token's claims |
| Tokens.OneHourValidity | backend/src/routes/auth.js:19 | a one-hour token verifies iff fewer than 3600 seconds separate the current second from the issue second: always when under 3599.001 s have passed, never from 3600 s on, and never under another key |
| ReviewSchema.NewReview | backend/src/models/Review.js:42-53 | a new review keeps the id, author and game it is given, and its createdAt and updatedAt are both the creation time |
| ReviewSchema.InsertKeepsConsistent | backend/src/models/Review.js:56-57 | appending a conforming review with a fresh id keeps (user, game) pairs unique iff its pair is not yet taken, and then the collection stays consistent |
| ReviewSchema.ReplaceKeepsConsistent | backend/src/models/Review.js:29-34 | replacing a review by a conforming one with the same id, owner and game keeps the collection consistent |
| ReviewSchema.RemoveKeepsConsistent | backend/src/models/Review.js:56-57 | removing the review at an index keeps the collection consistent, and the reviews left are exactly those with another id |
| ReviewRoutes.Select | backend/src/routes/reviews.js:16-22 | the selection holds exactly the caller's reviews that match the search, each as often as in the store |
| ReviewRoutes.SortNewestFirst | backend/src/routes/reviews.js:23 | the result is ordered by createdAt, newest first, and is a permutation of its input |
| ReviewRoutes.Locate | backend/src/routes/reviews.js:81-85 | Missing iff no review has the id; OtherOwner iff the review with that id belongs to someone else; Owned gives the index of the caller's review with that id |
| ReviewRoutes.CreateErrors | backend/src/routes/reviews.js:36-46 | no error iff the game id is an integer, slug, name and description are non-empty and the rating is an integer in 1..10; each message appears iff its own rule fails |
| ReviewRoutes.UpdateErrors | backend/src/routes/reviews.js:98-105 | no error iff a supplied rating is in 1..10 and a supplied description is non-empty; absent fields never fail |
| ReviewRoutes.Patched | backend/src/routes/reviews.js:112-116 | id, owner, game, slug, name and createdAt are kept; rating, description and comment change only when supplied; updatedAt is the update time; a valid patch keeps the review conforming |
| ReviewRoutes.ReviewStore.List | backend/src/routes/reviews.js:14-25 | only the caller's reviews, each matching the search; every such review is returned (all of the caller's when the search is empty), as often as stored, newest first |
| ReviewRoutes.ReviewStore.Get | backend/src/routes/reviews.js:80-87 | 404 iff the id is absent, 403 iff it belongs to another user, each with its message; otherwise 200 with the caller's review with that id |
| ReviewRoutes.ReviewStore.Create | backend/src/routes/reviews.js:42-72 | 400 with the validator messages, or 409 when the caller already reviewed the game, both leaving the store unchanged; otherwise exactly one review owned by the caller is appended and returned with 201; the store invariant is kept |
| ReviewRoutes.ReviewStore.Update | backend/src/routes/reviews.js:101-119 | validation before lookup (400), then 404, then 403, each leaving the store unchanged; on success only that review is replaced, by its patched version, and returned; the invariant is kept |
| ReviewRoutes.ReviewStore.Delete | backend/src/routes/reviews.js:126-134 | 404, then 403, each leaving the store unchanged; on success a review is left iff it was stored before and has another id, and the removal message is returned |
| UserSchema.NormalizeEmail | backend/src/models/User.js:16-22 | the stored email is lower-case and trimmed, no longer than the input, and empty iff the input is all white space |
| UserSchema.NormalEmailIsFixed | backend/src/models/User.js:19-20 | a lower-case, trimmed email is its own normal form |
| UserSchema.NormalizeEmailValue | backend/src/models/User.js:16-22 | the stored email is the input lower-cased with the white space at both ends, and only there, removed: it starts where the leading white space ends, each character is the lower-cased input character at the same place, and only white space follows it |
| UserSchema.NormalizeEmailIdempotent | backend/src/models/User.js:19-20 | normalising twice is normalising once |
| UserSchema.CreateUser | backend/src/models/User.js:10-39 | the document is accepted iff the trimmed name is non-empty and at most 120 characters and the email is not blank; the saved user has the trimmed name, the normalised email, the given hash, no avatar or reset fields, and createdAt equal to the creation time |
| UserSchema.InsertKeepsConsistent | backend/src/models/User.js:16-22 | appending a conforming user whose id and email are new keeps ids and emails unique |
| UserSchema.ReplaceKeepsConsistent | backend/src/models/User.js:16-22 | replacing a user by one with the same id, name and email keeps the collection consistent |
| AuthRoutes.GenerateToken | backend/src/routes/auth.js:15-21 | the token carries the user's id and email and verifies with the configured secret (or "secret") exactly until 3600 seconds after its issue second, so never from one hour after issue on |
| AuthRoutes.RegisterErrors | backend/src/routes/auth.js:27-35 | no error iff the name is non-empty, the email is valid and the password has at least 6 characters; each message appears iff its rule fails |
| AuthRoutes.LoginErrors | backend/src/routes/auth.js:53-60 | no error iff the email is valid and the password is non-empty; each message appears iff its rule fails |
| AuthRoutes.ResetErrors | backend/src/routes/auth.js:104-111 | no error iff the token is non-empty and the password has at least 6 characters; each message appears iff its rule fails |
| AuthRoutes.FindByEmail | backend/src/routes/auth.js:37 | finds the user whose stored email equals the given key (callers pass the normalised query email), and reports none iff there is no such user |
| AuthRoutes.InsertKeepsInvariant | backend/src/routes/auth.js:37-43 | appending a conforming user under the next id, with an email no stored user has and no reset fields, keeps unique ids and emails, paired reset fields and fresh ids |
| AuthRoutes.NewUserIsFound | backend/src/routes/auth.js:43 | after the insert, a lookup of the registered email finds the new user |
| AuthRoutes.ReplaceKeepsInvariant | backend/src/routes/auth.js:92-94 | changing only the password and reset fields of one user, keeping those fields paired, keeps the store invariant |
| AuthRoutes.FindResetHolder | backend/src/routes/auth.js:113-117 | finds a user whose stored digest is the digest of the token and whose expiry is strictly after now, and reports none iff there is no such user |
| AuthRoutes.ResetTokenWindow | backend/src/routes/auth.js:113-117 | a reset token issued at t is redeemable iff the same token is presented strictly before t + 1 h; at exactly t + 1 h it is refused |
| AuthRoutes.ResetIsSingleUse | backend/src/routes/auth.js:121-126 | after a successful reset the user who redeemed the digest never matches it again; if no other user held the same digest, no user can be found with it at any later time |
| AuthRoutes.UserStore.Login | backend/src/routes/auth.js:56-72 | 400 with the validator messages; otherwise 200 iff a user with the normalised email has this password, with a token for that user; an unknown email and a wrong password give the same 400 reply |
| AuthRoutes.UserStore.Register | backend/src/routes/auth.js:31-46 | 400 with the validator messages, 400 when the email is taken, or 500 when the schema rejects the name, each leaving the store unchanged; otherwise exactly one user is appended, whose hash is the bcrypt hash of the password, and 201 returns a token; that user can then log in; the invariant (unique emails) is kept |
| AuthRoutes.UserStore.ForgotPassword | backend/src/routes/auth.js:79-97 | 400 for an invalid email; otherwise 200; for an unknown email nothing changes; for a known email only that user changes, receiving the digest of the reset token and an expiry of now + 1 h, and the body carries the token |
| AuthRoutes.UserStore.ResetPassword | backend/src/routes/auth.js:107-127 | 400 with the validator messages, or 400 when no user holds a redeemable digest of the token, each leaving the store unchanged; otherwise only that user changes: new password hash, both reset fields cleared |
| AuthGate.BearerToken | backend/src/middleware/auth.js:10-11 | no header gives no token; a token is never empty and holds no space |
| AuthGate.NoSpaceNoToken | backend/src/middleware/auth.js:11-14 | a header without a space (such as "Bearer") has no token |
| AuthGate.EmptySecondFieldNoToken | backend/src/middleware/auth.js:11-14 | a space-free word followed by a space and then nothing or another space (such as "Bearer " or "Bearer  x") has no token |
| AuthGate.TokenIsSecondWord | backend/src/middleware/auth.js:11 | the token is the word after the first space, up to the next space or the end |
| AuthGate.SchemeWordIgnored | backend/src/middleware/auth.js:11 | any first word yields the same token: the scheme is not checked |
| AuthGate.Decide | backend/src/middleware/auth.js:10-22 | 401 iff there is no token; 403 iff there is one and it does not verify; otherwise the caller is the verified token's `id` |
| AuthGate.IssuedTokenAdmitsItsUser | backend/src/middleware/auth.js:15-20 | a token issued by register or login, sent as "Bearer token", passes as that user until its hour is over, and gives 403 from then on or under another key |
| AuthGate.Auth | backend/src/middleware/auth.js:9-22 | 401 or 403 with their messages, with `userId` unset and `next` not called; on success `userId` is the token's id, `next` runs exactly once and no status or body is written |
| GameContext.Initial | frontend/src/contexts/GameContext.jsx:6-21 | page 1, page size 12, ordering "-rating", not loading, no error, empty filters and lists, total 0 |
| GameContext.Reduce | frontend/src/contexts/GameContext.jsx:23-53 | each filter action sets its field and returns to page 1, leaving the listing alone; SET_PAGE changes only the page; FETCH_START/SUCCESS/ERROR set loading, results, total and error as described, FETCH_ERROR keeping the results; an unknown action changes nothing; no action changes the page size |
| GameContext.ReduceAll | frontend/src/contexts/GameContext.jsx:58 | a trace never changes the page size, and a trace without filter or SET_PAGE actions keeps the filters and the page |
| GameContext.ReduceAllAppend | frontend/src/contexts/GameContext.jsx:58 | rendering two batches in turn equals rendering them together |
| GameContext.PageSizeIsFixed | frontend/src/contexts/GameContext.jsx:17 | every state reachable from the initial one has page size 12 |
| GameContext.FilterReturnsToFirstPage | frontend/src/contexts/GameContext.jsx:25-32 | after a filter action, page 1 stays selected until the next SET_PAGE or filter action |
| GameContext.Outcome | frontend/src/contexts/GameContext.jsx:92-96 | a page of games gives FETCH_SUCCESS with its results and count, a failed request gives FETCH_ERROR with its message |
| GameContext.FetchCycle | frontend/src/contexts/GameContext.jsx:89-97 | after a fetch cycle nothing is loading, the filters and the page are kept, and the screen shows either the new page with no error or the old results with the error |
| GameContext.PlanSearch | frontend/src/contexts/GameContext.jsx:101-160 | genre and platform searches refuse iff their id is empty, the name search iff its query (argument, else the rendered text) is blank, each with its own message; a fetch sends the trimmed query, the chosen id, and the rendered ordering, page and page size |
| GameContext.Emitted | frontend/src/contexts/GameContext.jsx:89-97 | a refusal dispatches only FETCH_ERROR with its message; a fetch dispatches FETCH_START, then the outcome of the catalog's answer to the planned query (one FETCH_SUCCESS or FETCH_ERROR) |
| GameContext.Issued | frontend/src/contexts/GameContext.jsx:111-118 | a refused search sends no request; a fetch sends exactly the planned query |
| GameContext.RefusalKeepsResults | frontend/src/contexts/GameContext.jsx:111-118 | a refused search leaves everything on screen except that it stops loading and shows its message |
| GameContext.Provider.Dispatch | frontend/src/contexts/GameContext.jsx:58 | the action is queued; the rendered state does not change until the next render |
| GameContext.Provider.Render | frontend/src/contexts/GameContext.jsx:58 | the new state is the old one with the queued actions applied in order; the page-size invariant is kept |
| GameContext.Provider.FetchGames | frontend/src/contexts/GameContext.jsx:89-97 | dispatches FETCH_START, sends the query once, then dispatches the outcome of the catalog's answer |
| GameContext.Provider.SearchAll | frontend/src/contexts/GameContext.jsx:101-108 | dispatches and sends exactly what its plan says |
| GameContext.Provider.SearchByGenre | frontend/src/contexts/GameContext.jsx:111-125 | with no genre only FETCH_ERROR is dispatched and nothing is sent; otherwise the genre query is fetched |
| GameContext.Provider.SearchByPlatform | frontend/src/contexts/GameContext.jsx:128-142 | with no platform only FETCH_ERROR is dispatched and nothing is sent; otherwise the platform query is fetched |
| GameContext.Provider.SearchByText | frontend/src/contexts/GameContext.jsx:144-160 | with a blank query only FETCH_ERROR is dispatched and nothing is sent; otherwise the trimmed query is fetched |
| GameContext.Provider.Run | src/components/Pager.jsx:25 | invoking a chosen search does what that search's plan says |
| Pager.TotalPages | src/components/Pager.jsx:8 | between 1 and 1000 pages; with a positive page size, the ceiling of total / pageSize (no page empty, all games fit) when that is at most 1000, and 1000 otherwise; 1000 for a zero page size |
| Pager.View | src/components/Pager.jsx:6-8 | the pager is hidden iff the total is 0; otherwise it shows the total, the page and the page count `TotalPages` gives |
| Pager.LastAction | src/components/Pager.jsx:9-15 | text search if the search text is non-empty, else genre if chosen, else platform if chosen, else all games |
| Pager.RepeatRefusesOnlyBlankText | src/components/Pager.jsx:9-15 | the repeated search refuses exactly when the search text is non-empty but blank |
| Pager.OnChange | src/components/Pager.jsx:23-26 | dispatches SET_PAGE with the new page, then runs the search chosen at render |
| Pager.PageChangeRequestsShownPage | src/components/Pager.jsx:23-26 | after a page change the new page is selected, while the repeated search requests the page rendered before the change |

## Left out

- Cryptography is symbolic. bcrypt, SHA-256, random bytes and JWT signing
  are free constructors, so the model assumes no collisions and no forged
  signatures. The token's text encoding is the parameter `decode`.
- The `isEmail` validator is a parameter. express-validator's coercion of
  strings to integers is also not modelled: request fields arrive typed,
  with `None` for a missing or non-integer value.
- ReviewRoutes.ReviewStore.List: the search is a case-insensitive substring
  test, not a MongoDB regular expression, so metacharacters have no special
  meaning.
- Tokens.CompareHashed: bcrypt uses only the first 72 UTF-8 bytes of a
  password, so `bcrypt.compare` also accepts a different password sharing
  those 72 bytes with the registered one. The model compares whole
  passwords, because strings are code points with no byte encoding.
- Text.Lower: only ASCII letters are lower-cased. JavaScript's full Unicode
  case mapping is not modelled.
- String lengths count code points, not UTF-16 code units. This matters
  only for the 120-character name limit, whose `maxlength` counts UTF-16
  units; the 6-character password minimum of `isLength` already counts a
  surrogate pair as one character (it also skips U+FE0E and U+FE0F, which
  the model counts).
- Document ids are naturals taken from a counter. Malformed ids, and the
  cast error `findById` raises on them, are not modelled. Owner ids are
  compared as numbers, not as strings.
- ReviewRoutes.ReviewStore.Create: the 500 reply for database failures other
  than a duplicate key is not modelled. A duplicate key is exactly
  `PairTaken`.
- ReviewRoutes.ReviewStore.Update: a `null` comment is not representable.
  A supplied comment is a string.
- AuthRoutes.UserStore.Register: the 500 reply assumes that the handler's
  rejected promise reaches the application's error handler
  (backend/src/index.js:28-31).
- Database failures, connection handling, the Express application, CORS,
  logging and the 404 route are left out as I/O and server wiring.
- Concurrent requests are not modelled. The stores are sequential, and the
  unique indexes are store invariants.
- The RAWG catalog is a function parameter. URL building, `fetch` and the
  genre/platform list load at start-up are left out
  (frontend/src/contexts/GameContext.jsx:61-86), apart from the
  SET_GENRES/SET_PLATFORMS actions they dispatch.
- GameContext.Provider.FetchGames: the request is modelled as settling
  before the next action. Interleaved fetches, and a late answer overwriting
  a newer one, are not modelled.
- React rendering is reduced to `Provider.Render` folding the queued
  actions. When renders happen is not modelled.
- The user interface components are not part of this model: pages, dialogs,
  the filter menus and the search bar. Neither is the client's session
  handling (AuthContext).

=== FILE: auth_gate.dfy ===
/** The bearer-token gate placed in front of every /reviews route.  The
    token is the second field of the Authorization header split on single
    spaces; the first word is not checked to be "Bearer" (the header is only
    nominally the form of section 2.1 of RFC 6750).  A missing or empty token
    is refused with 401, a token that does not verify with 403, and a valid
    token sets the caller's id and passes control on exactly once. */
module AuthGate {
  import opened Util
  import opened Text
  import opened Tokens
  import opened UserSchema
  import opened AuthRoutes

  const MISSING_TOKEN_TEXT: string := "Authorization token missing"
  const INVALID_TOKEN_TEXT: string := "Invalid or expired token"

  /** `authHeader && authHeader.split(' ')[1]`, kept only when it is a
      non-empty string (an absent field or "" is falsy). */
  function BearerToken(header: Option<string>): (t: Option<string>)
    ensures header.None? ==> t.None?
    ensures t.Some? ==> t.value != "" && ' ' !in t.value
  {
    if header.None? then None
    else
      var fields := Split(header.value, ' ');
      if |fields| >= 2 && fields[1] != "" then Some(fields[1]) else None
  }

  /** A header without a space has no token ("Bearer" alone, say). */
  lemma NoSpaceNoToken(header: string)
    requires ' ' !in header
    ensures BearerToken(Some(header)).None?
  {
  }

  /** A first word followed by a space and then nothing or another space
      leaves an empty second field, so there is no token ("Bearer " or
      "Bearer  x"). */
  lemma EmptySecondFieldNoToken(word: string, rest: string)
    requires ' ' !in word
    requires rest == [] || rest[0] == ' '
    ensures BearerToken(Some(word + " " + rest)).None?
  {
    assert word + " " + rest == word + [' '] + rest;
    SplitAfterWord(word, ' ', rest);
    FirstField("", rest);
    assert "" + rest == rest;
  }

  /** The token is the word after the first space, up to the next space or
      the end of the header. */
  lemma TokenIsSecondWord(word: string, token: string, rest: string)
    requires ' ' !in word && ' ' !in token && token != ""
    requires rest == [] || rest[0] == ' '
    ensures BearerToken(Some(word + " " + token + rest)) == Some(token)
  {
    var tail := token + rest;
    assert word + " " + token + rest == word + [' '] + tail;
    SplitAfterWord(word, ' ', tail);
    FirstField(token, rest);
  }

  /** A field ends at the next space or at the end of the string. */
  lemma FirstField(token: string, rest: string)
    requires ' ' !in token
    requires rest == [] || rest[0] == ' '
    ensures Split(token + rest, ' ')[0] == token
  {
    if rest == [] {
      assert token + rest == token;
      JoinSplit(token, ' ');
    } else {
      assert token + rest == token + [' '] + rest[1..];
      SplitAfterWord(token, ' ', rest[1..]);
    }
  }

  /** The scheme word is ignored: any first word gives the same token. */
  lemma SchemeWordIgnored(word1: string, word2: string, rest: string)
    requires ' ' !in word1 && ' ' !in word2
    ensures BearerToken(Some(word1 + " " + rest)) == BearerToken(Some(word2 + " " + rest))
  {
    SplitAfterWord(word1, ' ', rest);
    SplitAfterWord(word2, ' ', rest);
    assert word1 + " " + rest == word1 + [' '] + rest;
    assert word2 + " " + rest == word2 + [' '] + rest;
  }

  /** `jwt.verify(token, key)` on the header's text: `decode` parses the
      compact serialisation (None for a malformed token). */
  function VerifyText(token: string, decode: string -> Option<Jwt>, key: string, now: nat): Option<Claims> {
    match decode(token)
    case None => None
    case Some(jwt) => Verify(jwt, key, now)
  }

  datatype Decision = Unauthorized | Forbidden | Proceed(userId: nat)

  /** The 401 / 403 / pass decision. */
  function Decide(header: Option<string>, decode: string -> Option<Jwt>, key: string, now: nat): (d: Decision)
    ensures d.Unauthorized? <==> BearerToken(header).None?
    ensures d.Forbidden? <==>
              BearerToken(header).Some? && VerifyText(BearerToken(header).value, decode, key, now).None?
    ensures d.Proceed? ==>
              BearerToken(header).Some?
              && VerifyText(BearerToken(header).value, decode, key, now) == Some(decode(BearerToken(header).value).value.claims)
              && d.userId == decode(BearerToken(header).value).value.claims.id
  {
    match BearerToken(header)
    case None => Unauthorized
    case Some(token) =>
      match VerifyText(token, decode, key, now)
      case None => Forbidden
      case Some(claims) => Proceed(claims.id)
  }

  /** A session token issued to a user (at register or login), presented as
      "Bearer <token>" to a gate configured with the same secret, lets the
      request through as that user until the hour is over, and is refused
      with 403 from then on and by a gate with another key. */
  lemma IssuedTokenAdmitsItsUser(token: string, decode: string -> Option<Jwt>, u: User,
                                 jwtSecret: Option<string>, issued: nat, now: nat, key: string)
    requires ' ' !in token && token != ""
    requires decode(token) == Some(GenerateToken(u, jwtSecret, issued))
    ensures Seconds(now) < Seconds(issued) + 3600 ==>
              Decide(Some("Bearer " + token), decode, SigningKey(jwtSecret), now) == Proceed(u.id)
    ensures now >= issued + 3600000 ==>
              Decide(Some("Bearer " + token), decode, SigningKey(jwtSecret), now) == Forbidden
    ensures key != SigningKey(jwtSecret) ==>
              Decide(Some("Bearer " + token), decode, key, now) == Forbidden
  {
    TokenIsSecondWord("Bearer", token, "");
    assert "Bearer" + " " + token + "" == "Bearer " + token;
  }

  /** The request and response as the gate sees them. */
  class Exchange {
    const authorization: Option<string>   // req.headers['authorization']
    var userId: Option<nat>               // req.userId
    var status: Option<int>               // res.status(...)
    var message: Option<string>           // res.json({ message })
    var nextCalls: nat                    // how many times next() ran

    constructor (authorization: Option<string>)
      ensures this.authorization == authorization
      ensures userId.None? && status.None? && message.None? && nextCalls == 0
    {
      this.authorization := authorization;
      userId, status, message, nextCalls := None, None, None, 0;
    }
  }

  /** `auth(req, res, next)`, verifying with `JWT_SECRET || 'secret'`. */
  method Auth(x: Exchange, decode: string -> Option<Jwt>, jwtSecret: Option<string>, now: nat)
    modifies x
    ensures Decide(x.authorization, decode, SigningKey(jwtSecret), now) == Unauthorized ==>
              x.status == Some(UNAUTHORIZED) && x.message == Some(MISSING_TOKEN_TEXT)
              && x.userId == old(x.userId) && x.nextCalls == old(x.nextCalls)
    ensures Decide(x.authorization, decode, SigningKey(jwtSecret), now) == Forbidden ==>
              x.status == Some(FORBIDDEN) && x.message == Some(INVALID_TOKEN_TEXT)
              && x.userId == old(x.userId) && x.nextCalls == old(x.nextCalls)
    ensures Decide(x.authorization, decode, SigningKey(jwtSecret), now).Proceed? ==>
              x.userId == Some(Decide(x.authorization, decode, SigningKey(jwtSecret), now).userId)
              && x.nextCalls == old(x.nextCalls) + 1
              && x.status == old(x.status) && x.message == old(x.message)
  {
    var token := BearerToken(x.authorization);
    if token.None? {
      x.status := Some(UNAUTHORIZED);
      x.message := Some(MISSING_TOKEN_TEXT);
      return;
    }
    var decoded := VerifyText(token.value, decode, SigningKey(jwtSecret), now);
    if decoded.None? {
      x.status := Some(FORBIDDEN);
      x.message := Some(INVALID_TOKEN_TEXT);
      return;
    }
    x.userId := Some(decoded.value.id);
    x.nextCalls := x.nextCalls + 1;
  }
}

=== FILE: auth_routes.dfy ===
/** The /auth routes and the session-token issuer.  The users collection is a
    `UserStore` object: register inserts a user, forgot-password and
    reset-password assign fields of one user in place.  Randomness (bcrypt
    salts, the reset token) and the clock are inputs; `isEmail` is the email
    validator, left abstract. */
module AuthRoutes {
  import opened Util
  import opened Tokens
  import opened UserSchema

  /** Response bodies of the auth routes. */
  datatype Body =
    | Errors(messages: seq<string>)         // validator messages, in rule order
    | Message(text: string)
    | Token(token: Jwt)
    | ResetIssued(text: string, resetToken: string)

  type Response = Reply<Body>

  const NAME_REQUIRED: string := "Nome é obrigatório"
  const EMAIL_INVALID: string := "Email inválido"
  const PASSWORD_TOO_SHORT: string := "Senha deve ter ao menos 6 caracteres"
  const PASSWORD_REQUIRED: string := "Senha é obrigatória"
  const TOKEN_REQUIRED: string := "Token é obrigatório"
  const EMAIL_TAKEN: string := "Email já cadastrado"
  const BAD_CREDENTIALS: string := "Credenciais inválidas"
  const RESET_ACKNOWLEDGED: string := "Se o email estiver cadastrado, enviaremos instruções"
  const RESET_ISSUED: string := "Token de recuperação gerado"
  const BAD_RESET_TOKEN: string := "Token inválido ou expirado"
  const PASSWORD_UPDATED: string := "Senha atualizada com sucesso"
  const INTERNAL_TEXT: string := "Erro interno do servidor"

  const MIN_PASSWORD_LENGTH: nat := 6
  /** Lifetime of a reset token: one hour, in milliseconds. */
  const RESET_WINDOW_MS: nat := 60 * 60 * 1000

  /** `generateToken(user)`: a token for the user's id and email, signed with
      the key `JWT_SECRET || 'secret'`, that stops verifying one hour after
      it was issued. */
  function GenerateToken(u: User, jwtSecret: Option<string>, now: nat): (t: Jwt)
    ensures t.claims.id == u.id && t.claims.email == u.email
    ensures var key := SigningKey(jwtSecret);
            forall later :: Verify(t, key, later).Some? <==> Seconds(later) < Seconds(now) + 3600
    ensures var key := SigningKey(jwtSecret);
            forall later :: later >= now + 3600000 ==> Verify(t, key, later).None?
  {
    var key := SigningKey(jwtSecret);
    var t := SignForOneHour(u.id, u.email, key, now);
    assert forall later :: later >= now + 3600000 ==> Verify(t, key, later).None? by {
      forall later | later >= now + 3600000 ensures Verify(t, key, later).None? {
        OneHourValidity(u.id, u.email, key, now, later, key);
      }
    }
    t
  }

  // -------------------------------------------------------- validation

  function RegisterErrors(name: string, email: string, password: string, isEmail: string -> bool): (errs: seq<string>)
    ensures errs == [] <==> name != "" && isEmail(email) && |password| >= MIN_PASSWORD_LENGTH
    ensures (NAME_REQUIRED in errs) <==> name == ""
    ensures (EMAIL_INVALID in errs) <==> !isEmail(email)
    ensures (PASSWORD_TOO_SHORT in errs) <==> |password| < MIN_PASSWORD_LENGTH
  {
    (if name == "" then [NAME_REQUIRED] else [])
    + (if !isEmail(email) then [EMAIL_INVALID] else [])
    + (if |password| < MIN_PASSWORD_LENGTH then [PASSWORD_TOO_SHORT] else [])
  }

  function LoginErrors(email: string, password: string, isEmail: string -> bool): (errs: seq<string>)
    ensures errs == [] <==> isEmail(email) && password != ""
    ensures (EMAIL_INVALID in errs) <==> !isEmail(email)
    ensures (PASSWORD_REQUIRED in errs) <==> password == ""
  {
    (if !isEmail(email) then [EMAIL_INVALID] else [])
    + (if password == "" then [PASSWORD_REQUIRED] else [])
  }

  function ResetErrors(token: string, password: string): (errs: seq<string>)
    ensures errs == [] <==> token != "" && |password| >= MIN_PASSWORD_LENGTH
    ensures (TOKEN_REQUIRED in errs) <==> token == ""
    ensures (PASSWORD_TOO_SHORT in errs) <==> |password| < MIN_PASSWORD_LENGTH
  {
    (if token == "" then [TOKEN_REQUIRED] else [])
    + (if |password| < MIN_PASSWORD_LENGTH then [PASSWORD_TOO_SHORT] else [])
  }

  // ----------------------------------------------------------- lookups

  /** `User.findOne({ email })`.  The schema's setters turn the filter value
      into its normal form `key = NormalizeEmail(email)` first. */
  function FindByEmail(users: seq<User>, key: string): (r: Option<nat>)
    requires EmailsUnique(users)
    ensures r.None? <==> forall k :: 0 <= k < |users| ==> users[k].email != key
    ensures r.Some? ==> r.value < |users| && users[r.value].email == key
  {
    FindIndex(users, (u: User) => u.email == key)
  }

  /** The reset filter: the stored digest equals `digest` and the expiry is
      strictly later than `now` (a missing expiry never matches). */
  predicate Redeemable(u: User, digest: Digest, now: nat) {
    u.resetPasswordToken == Some(digest) && u.resetPasswordExpires.Some? && u.resetPasswordExpires.value > now
  }

  /** `User.findOne({ resetPasswordToken, resetPasswordExpires: { $gt: now } })`. */
  function FindResetHolder(users: seq<User>, digest: Digest, now: nat): (r: Option<nat>)
    ensures r.None? <==> forall k :: 0 <= k < |users| ==> !Redeemable(users[k], digest, now)
    ensures r.Some? ==> r.value < |users| && Redeemable(users[r.value], digest, now)
  {
    FindIndex(users, (u: User) => Redeemable(u, digest, now))
  }

  /** The user after forgot-password: the digest of the reset token and an
      expiry one hour ahead. */
  function WithResetToken(u: User, resetToken: string, now: nat): User {
    u.(resetPasswordToken := Some(Sha256(resetToken)), resetPasswordExpires := Some(now + RESET_WINDOW_MS))
  }

  /** The user after reset-password: a new hash and no reset fields. */
  function WithNewPassword(u: User, hash: PasswordHash): User {
    u.(passwordHash := hash, resetPasswordToken := None, resetPasswordExpires := None)
  }

  /** A reset token issued at `issued` is accepted exactly while the clock is
      strictly before `issued + 1h`, and no other token is accepted for it. */
  lemma ResetTokenWindow(u: User, resetToken: string, issued: nat, now: nat, presented: string)
    ensures (Redeemable(WithResetToken(u, resetToken, issued), Sha256(presented), now)
             <==> presented == resetToken && now < issued + RESET_WINDOW_MS)
    ensures !Redeemable(WithResetToken(u, resetToken, issued), Sha256(resetToken), issued + RESET_WINDOW_MS)
  {
  }

  /** After a successful reset the redeemer never matches the digest again,
      and unless another user held it already, nobody does: the token is
      single use. */
  lemma ResetIsSingleUse(users: seq<User>, i: nat, digest: Digest, hash: PasswordHash, users': seq<User>)
    requires i < |users| && users' == users[i := WithNewPassword(users[i], hash)]
    ensures forall later :: !Redeemable(users'[i], digest, later)
    ensures (forall k :: 0 <= k < |users| && k != i ==> users[k].resetPasswordToken != Some(digest)) ==>
              forall later :: FindResetHolder(users', digest, later).None?
  {
    if forall k :: 0 <= k < |users| && k != i ==> users[k].resetPasswordToken != Some(digest) {
      forall later ensures FindResetHolder(users', digest, later).None? {
        assert forall k :: 0 <= k < |users'| ==> !Redeemable(users'[k], digest, later);
      }
    }
  }

  // ------------------------------------------------------------- store

  /** The reset fields are set and cleared together. */
  predicate ResetFieldsPaired(users: seq<User>) {
    forall k :: 0 <= k < |users| ==>
      (users[k].resetPasswordToken.Some? <==> users[k].resetPasswordExpires.Some?)
  }

  /** The invariant of the users collection and its id counter: the schema
      rules, unique ids and emails, paired reset fields and fresh ids. */
  predicate StoreInvariant(users: seq<User>, nextId: nat) {
    Consistent(users) && ResetFieldsPaired(users)
    && forall k :: 0 <= k < |users| ==> users[k].id < nextId
  }

  /** Registering a conforming user under the next id, with an email no
      stored user has, keeps the invariant. */
  lemma InsertKeepsInvariant(users: seq<User>, nextId: nat, u: User)
    requires StoreInvariant(users, nextId) && Conforms(u) && u.id == nextId
    requires u.resetPasswordToken.None? && u.resetPasswordExpires.None?
    requires forall k :: 0 <= k < |users| ==> users[k].email != u.email
    ensures StoreInvariant(users + [u], nextId + 1)
  {
    InsertKeepsConsistent(users, u);
    var users' := users + [u];
    assert forall k :: 0 <= k < |users| ==> users'[k] == users[k];
  }

  /** After registration, a lookup of the registered email finds the new
      user. */
  lemma NewUserIsFound(users: seq<User>, u: User)
    requires EmailsUnique(users + [u])
    requires forall k :: 0 <= k < |users| ==> users[k].email != u.email
    ensures FindByEmail(users + [u], u.email) == Some(|users|)
  {
    var users' := users + [u];
    assert users'[|users|] == u;
    assert forall k :: 0 <= k < |users| ==> users'[k].email != u.email;
  }

  /** Changing only the password and reset fields of one user, keeping the
      fields paired, keeps the invariant. */
  lemma ReplaceKeepsInvariant(users: seq<User>, nextId: nat, i: nat, u: User)
    requires StoreInvariant(users, nextId) && i < |users|
    requires u.id == users[i].id && u.name == users[i].name && u.email == users[i].email
    requires u.resetPasswordToken.Some? <==> u.resetPasswordExpires.Some?
    ensures StoreInvariant(users[i := u], nextId)
  {
    ReplaceKeepsConsistent(users, i, u);
  }

  class UserStore {
    var users: seq<User>
    var nextId: nat

    ghost predicate Valid()
      reads this
    {
      StoreInvariant(users, nextId)
    }

    constructor ()
      ensures Valid() && users == []
    {
      users := [];
      nextId := 0;
    }

    /** POST /auth/login.  An unknown email and a wrong password give the
        same response. */
    function Login(email: string, password: string, isEmail: string -> bool, jwtSecret: Option<string>, now: nat): (resp: Response)
      requires Valid()
      reads this
      ensures LoginErrors(email, password, isEmail) != [] ==>
                resp == Reply(BAD_REQUEST, Errors(LoginErrors(email, password, isEmail)))
      ensures LoginErrors(email, password, isEmail) == [] ==>
                (resp.status == OK <==>
                  exists k :: 0 <= k < |users| && users[k].email == NormalizeEmail(email)
                              && ComparePassword(password, users[k].passwordHash))
      ensures resp.status == OK ==>
                exists k :: 0 <= k < |users| && users[k].email == NormalizeEmail(email)
                            && resp == Reply(OK, Token(GenerateToken(users[k], jwtSecret, now)))
      ensures LoginErrors(email, password, isEmail) == [] && resp.status != OK ==>
                resp == Reply(BAD_REQUEST, Message(BAD_CREDENTIALS))
    {
      var errors := LoginErrors(email, password, isEmail);
      if errors != [] then Reply(BAD_REQUEST, Errors(errors))
      else
        var key := NormalizeEmail(email);
        match FindByEmail(users, key)
        case None => Reply(BAD_REQUEST, Message(BAD_CREDENTIALS))
        case Some(i) =>
          if !ComparePassword(password, users[i].passwordHash) then Reply(BAD_REQUEST, Message(BAD_CREDENTIALS))
          else Reply(OK, Token(GenerateToken(users[i], jwtSecret, now)))
    }

    /** POST /auth/register. */
    method Register(name: string, email: string, password: string, isEmail: string -> bool,
                    salt: string, jwtSecret: Option<string>, now: nat) returns (resp: Response)
      requires Valid()
      modifies this
      ensures Valid()
      ensures RegisterErrors(name, email, password, isEmail) != [] ==>
                resp == Reply(BAD_REQUEST, Errors(RegisterErrors(name, email, password, isEmail)))
                && users == old(users) && nextId == old(nextId)
      ensures RegisterErrors(name, email, password, isEmail) == [] && FindByEmail(old(users), NormalizeEmail(email)).Some? ==>
                resp == Reply(BAD_REQUEST, Message(EMAIL_TAKEN))
                && users == old(users) && nextId == old(nextId)
      ensures RegisterErrors(name, email, password, isEmail) == [] && FindByEmail(old(users), NormalizeEmail(email)).None? ==>
                var created := CreateUser(old(nextId), name, email, HashPassword(password, salt), now);
                (created.None? ==>
                  resp == Reply(INTERNAL_ERROR, Message(INTERNAL_TEXT))
                  && users == old(users) && nextId == old(nextId))
                && (created.Some? ==>
                  users == old(users) + [created.value] && nextId == old(nextId) + 1
                  && resp == Reply(CREATED, Token(GenerateToken(created.value, jwtSecret, now))))
      ensures resp.status == CREATED ==>
                |users| == |old(users)| + 1
                && users[|users| - 1].passwordHash == HashPassword(password, salt)
                && Login(email, password, isEmail, jwtSecret, now).status == OK
    {
      var errors := RegisterErrors(name, email, password, isEmail);
      if errors != [] {
        return Reply(BAD_REQUEST, Errors(errors));
      }
      var key := NormalizeEmail(email);
      if FindByEmail(users, key).Some? {
        return Reply(BAD_REQUEST, Message(EMAIL_TAKEN));
      }
      var passwordHash := HashPassword(password, salt);
      var created := CreateUser(nextId, name, email, passwordHash, now);
      if created.None? {
        // the schema rejects the document and the handler's promise rejects
        return Reply(INTERNAL_ERROR, Message(INTERNAL_TEXT));
      }
      var user := created.value;
      InsertKeepsInvariant(users, nextId, user);
      NewUserIsFound(users, user);
      users := users + [user];
      nextId := nextId + 1;
      resp := Reply(CREATED, Token(GenerateToken(user, jwtSecret, now)));
      assert users[|users| - 1] == user;
    }

    /** POST /auth/forgot-password.  `resetToken` is the freshly generated
        random token. */
    method ForgotPassword(email: string, isEmail: string -> bool, resetToken: string, now: nat)
      returns (resp: Response)
      requires Valid()
      modifies this
      ensures Valid() && nextId == old(nextId)
      ensures !isEmail(email) ==>
                resp == Reply(BAD_REQUEST, Errors([EMAIL_INVALID])) && users == old(users)
      ensures isEmail(email) ==> resp.status == OK
      ensures isEmail(email) && FindByEmail(old(users), NormalizeEmail(email)).None? ==>
                resp == Reply(OK, Message(RESET_ACKNOWLEDGED)) && users == old(users)
      ensures isEmail(email) && FindByEmail(old(users), NormalizeEmail(email)).Some? ==>
                var i := FindByEmail(old(users), NormalizeEmail(email)).value;
                users == old(users)[i := WithResetToken(old(users)[i], resetToken, now)]
                && resp == Reply(OK, ResetIssued(RESET_ISSUED, resetToken))
    {
      if !isEmail(email) {
        return Reply(BAD_REQUEST, Errors([EMAIL_INVALID]));
      }
      var key := NormalizeEmail(email);
      match FindByEmail(users, key)
      case None =>
        resp := Reply(OK, Message(RESET_ACKNOWLEDGED));
      case Some(i) =>
        var user := users[i];
        user := user.(resetPasswordToken := Some(Sha256(resetToken)));
        user := user.(resetPasswordExpires := Some(now + RESET_WINDOW_MS));
        ReplaceKeepsInvariant(users, nextId, i, user);
        users := users[i := user];
        resp := Reply(OK, ResetIssued(RESET_ISSUED, resetToken));
    }

    /** POST /auth/reset-password. */
    method ResetPassword(token: string, password: string, salt: string, now: nat) returns (resp: Response)
      requires Valid()
      modifies this
      ensures Valid() && nextId == old(nextId)
      ensures ResetErrors(token, password) != [] ==>
                resp == Reply(BAD_REQUEST, Errors(ResetErrors(token, password))) && users == old(users)
      ensures ResetErrors(token, password) == [] && FindResetHolder(old(users), Sha256(token), now).None? ==>
                resp == Reply(BAD_REQUEST, Message(BAD_RESET_TOKEN)) && users == old(users)
      ensures ResetErrors(token, password) == [] && FindResetHolder(old(users), Sha256(token), now).Some? ==>
                var i := FindResetHolder(old(users), Sha256(token), now).value;
                users == old(users)[i := WithNewPassword(old(users)[i], HashPassword(password, salt))]
                && resp == Reply(OK, Message(PASSWORD_UPDATED))
    {
      var errors := ResetErrors(token, password);
      if errors != [] {
        return Reply(BAD_REQUEST, Errors(errors));
      }
      var hashed := Sha256(token);
      match FindResetHolder(users, hashed, now)
      case None =>
        resp := Reply(BAD_REQUEST, Message(BAD_RESET_TOKEN));
      case Some(i) =>
        var user := users[i];
        user := user.(passwordHash := HashPassword(password, salt));
        user := user.(resetPasswordToken := None);
        user := user.(resetPasswordExpires := None);
        ReplaceKeepsInvariant(users, nextId, i, user);
        users := users[i := user];
        resp := Reply(OK, Message(PASSWORD_UPDATED));
    }
  }
}

=== FILE: game_context.dfy ===
/** The catalog-search state of the game browser: a reducer over one record
    with a closed set of actions, and the four searches that either refuse
    (dispatching FETCH_ERROR with a fixed message) or fetch a page of games
    from the catalog (FETCH_START, then exactly one of FETCH_SUCCESS and
    FETCH_ERROR).

    The searches read the state as it was last rendered; dispatched actions
    wait in `pending` until the next render folds them through the reducer. */
module GameContext {
  import opened Util
  import opened Text

  /** One game of a result page, and one entry of the genre or platform
      lists; only what identifies them is kept. */
  datatype Game = Game(id: int, name: string)
  datatype Tag = Tag(id: int, name: string)

  datatype State = State(
    loading: bool,
    error: Option<string>,
    searchText: string,
    genreId: string,        // "" when no genre is chosen
    platformId: string,     // "" when no platform is chosen
    ordering: string,
    results: seq<Game>,
    total: nat,             // the catalog's `count`
    page: int,
    pageSize: nat,
    genres: seq<Tag>,
    platforms: seq<Tag>)

  const DEFAULT_ORDERING: string := "-rating"
  const PAGE_SIZE: nat := 12

  /** `initialState`. */
  function Initial(): (s: State)
    ensures s.page == 1 && s.pageSize == PAGE_SIZE && s.ordering == DEFAULT_ORDERING
    ensures !s.loading && s.error.None?
    ensures s.searchText == "" && s.genreId == "" && s.platformId == ""
    ensures s.results == [] && s.total == 0 && s.genres == [] && s.platforms == []
  {
    State(false, None, "", "", "", DEFAULT_ORDERING, [], 0, 1, PAGE_SIZE, [], [])
  }

  /** The action types the reducer knows, and `Other` for any other type. */
  datatype Action =
    | SetSearchText(text: string)
    | SetGenre(genreId: string)
    | SetPlatform(platformId: string)
    | SetOrdering(ordering: string)
    | SetPage(page: int)
    | FetchStart
    | FetchSuccess(results: seq<Game>, count: nat)
    | FetchError(message: string)
    | SetGenres(genres: seq<Tag>)
    | SetPlatforms(platforms: seq<Tag>)
    | Other(kind: string)
  {
    /** The four filter actions, each of which returns to the first page. */
    predicate IsFilter() {
      SetSearchText? || SetGenre? || SetPlatform? || SetOrdering?
    }
    predicate IsFetch() {
      FetchStart? || FetchSuccess? || FetchError?
    }
  }

  /** What the user asked for: the text and the three choices. */
  function Filters(s: State): (string, string, string, string) {
    (s.searchText, s.genreId, s.platformId, s.ordering)
  }

  /** What the last fetch left on screen. */
  function Listing(s: State): (bool, Option<string>, seq<Game>, nat) {
    (s.loading, s.error, s.results, s.total)
  }

  /** `reducer(state, action)`. */
  function Reduce(s: State, a: Action): (t: State)
    ensures t.pageSize == s.pageSize
    ensures t.genres == s.genres || a.SetGenres?
    ensures t.platforms == s.platforms || a.SetPlatforms?
    ensures a.IsFilter() ==> t.page == 1 && Listing(t) == Listing(s)
    ensures a.SetSearchText? ==> Filters(t) == (a.text, s.genreId, s.platformId, s.ordering)
    ensures a.SetGenre? ==> Filters(t) == (s.searchText, a.genreId, s.platformId, s.ordering)
    ensures a.SetPlatform? ==> Filters(t) == (s.searchText, s.genreId, a.platformId, s.ordering)
    ensures a.SetOrdering? ==> Filters(t) == (s.searchText, s.genreId, s.platformId, a.ordering)
    ensures a.SetPage? ==> t == s.(page := a.page)
    ensures a.IsFetch() ==> Filters(t) == Filters(s) && t.page == s.page
    ensures a.FetchStart? ==> t.loading && t.error.None? && t.results == s.results && t.total == s.total
    ensures a.FetchSuccess? ==> !t.loading && t.error == s.error && t.results == a.results && t.total == a.count
    ensures a.FetchError? ==> !t.loading && t.error == Some(a.message) && t.results == s.results && t.total == s.total
    ensures a.SetGenres? ==> t == s.(genres := a.genres)
    ensures a.SetPlatforms? ==> t == s.(platforms := a.platforms)
    ensures a.Other? ==> t == s
  {
    match a
    case SetSearchText(text) => s.(searchText := text, page := 1)
    case SetGenre(genreId) => s.(genreId := genreId, page := 1)
    case SetPlatform(platformId) => s.(platformId := platformId, page := 1)
    case SetOrdering(ordering) => s.(ordering := ordering, page := 1)
    case SetPage(page) => s.(page := page)
    case FetchStart => s.(loading := true, error := None)
    case FetchSuccess(results, count) => s.(loading := false, results := results, total := count)
    case FetchError(message) => s.(loading := false, error := Some(message))
    case SetGenres(genres) => s.(genres := genres)
    case SetPlatforms(platforms) => s.(platforms := platforms)
    case Other(_) => s
  }

  /** The state a render shows after the actions of `trace`, in order. */
  function ReduceAll(s: State, trace: seq<Action>): (t: State)
    ensures t.pageSize == s.pageSize
    ensures (forall k :: 0 <= k < |trace| ==> !trace[k].IsFilter() && !trace[k].SetPage?) ==>
              Filters(t) == Filters(s) && t.page == s.page
    decreases |trace|
  {
    if trace == [] then s else ReduceAll(Reduce(s, trace[0]), trace[1..])
  }

  /** Rendering two batches one after the other is rendering them together. */
  lemma {:induction false} ReduceAllAppend(s: State, trace1: seq<Action>, trace2: seq<Action>)
    ensures ReduceAll(s, trace1 + trace2) == ReduceAll(ReduceAll(s, trace1), trace2)
    decreases |trace1|
  {
    if trace1 == [] {
      assert trace1 + trace2 == trace2;
    } else {
      assert (trace1 + trace2)[1..] == trace1[1..] + trace2;
      ReduceAllAppend(Reduce(s, trace1[0]), trace1[1..], trace2);
    }
  }

  /** Every state reachable from the initial one shows twelve games a page,
      so the page count never divides by zero. */
  lemma PageSizeIsFixed(trace: seq<Action>)
    ensures ReduceAll(Initial(), trace).pageSize == PAGE_SIZE
  {
  }

  /** A filter action followed by anything but SET_PAGE and other filter
      actions leaves the first page selected. */
  lemma FilterReturnsToFirstPage(s: State, a: Action, rest: seq<Action>)
    requires a.IsFilter()
    requires forall k :: 0 <= k < |rest| ==> !rest[k].IsFilter() && !rest[k].SetPage?
    ensures ReduceAll(s, [a] + rest).page == 1
  {
    assert ([a] + rest)[1..] == rest;
    assert Reduce(s, a).page == 1;
  }

  // ---- Fetching ----

  /** Which games a request asks for.  `ByName` is sent with
      search_precise=true. */
  datatype Filter = AllGames | ByGenre(genres: string) | ByPlatform(platforms: string) | ByName(search: string)

  /** The parameters of one /games request. */
  datatype Query = Query(filter: Filter, ordering: string, page: int, pageSize: nat)

  /** What the catalog answers: a page of games and the total count, or the
      message of the error raised by the request. */
  datatype CatalogReply = Page(results: seq<Game>, count: nat) | Failed(message: string)

  /** The action `fetchGames` dispatches once the request settles. */
  function Outcome(reply: CatalogReply): (a: Action)
    ensures a.FetchSuccess? <==> reply.Page?
    ensures a.FetchError? <==> reply.Failed?
    ensures reply.Page? ==> a.results == reply.results && a.count == reply.count
    ensures reply.Failed? ==> a.message == reply.message
  {
    match reply
    case Page(results, count) => FetchSuccess(results, count)
    case Failed(message) => FetchError(message)
  }

  /** Rendering one fetch cycle: the spinner is off at the end, the
      catalog's page is shown on success (with no error), and on failure the
      previous results stay with the error beside them. */
  lemma FetchCycle(s: State, reply: CatalogReply)
    ensures !ReduceAll(s, [FetchStart, Outcome(reply)]).loading
    ensures Filters(ReduceAll(s, [FetchStart, Outcome(reply)])) == Filters(s)
    ensures ReduceAll(s, [FetchStart, Outcome(reply)]).page == s.page
    ensures reply.Page? ==>
              ReduceAll(s, [FetchStart, Outcome(reply)]) == s.(loading := false, error := None, results := reply.results, total := reply.count)
    ensures reply.Failed? ==>
              ReduceAll(s, [FetchStart, Outcome(reply)]) == s.(loading := false, error := Some(reply.message))
  {
    var started := Reduce(s, FetchStart);
    assert [FetchStart, Outcome(reply)][1..] == [Outcome(reply)];
    assert [Outcome(reply)][1..] == [];
    assert ReduceAll(s, [FetchStart, Outcome(reply)]) == ReduceAll(started, [Outcome(reply)]);
    assert ReduceAll(started, [Outcome(reply)]) == Reduce(started, Outcome(reply));
  }

  // ---- Searches ----

  const NO_GENRE_TEXT: string := "Por favor busque um jogo antes de selecionar um gÃªnero."
  const NO_PLATFORM_TEXT: string := "Por favor busque um jogo antes de selecionar uma plataforma."
  const NO_TEXT_TEXT: string := "Digite para buscar pelo nome."

  /** The four searches; `Text` carries the optional argument of
      `searchByText`. */
  datatype Search = All | Genre | Platform | Text(text: Option<string>)

  /** What a search does: refuse with a message, or fetch a query. */
  datatype Plan = Refuse(message: string) | Fetch(query: Query)

  /** The search text actually used: the argument when given, else the
      rendered search text. */
  function QueryText(s: State, text: Option<string>): string {
    text.GetOr(s.searchText)
  }

  /** The guard and the parameters of each search over the rendered state. */
  function PlanSearch(s: State, search: Search): (p: Plan)
    ensures search.All? ==> p.Fetch? && p.query.filter == AllGames
    ensures search.Genre? ==> (p.Refuse? <==> s.genreId == "")
    ensures search.Genre? && p.Refuse? ==> p.message == NO_GENRE_TEXT
    ensures search.Genre? && p.Fetch? ==> p.query.filter == ByGenre(s.genreId)
    ensures search.Platform? ==> (p.Refuse? <==> s.platformId == "")
    ensures search.Platform? && p.Refuse? ==> p.message == NO_PLATFORM_TEXT
    ensures search.Platform? && p.Fetch? ==> p.query.filter == ByPlatform(s.platformId)
    ensures search.Text? ==> (p.Refuse? <==> IsBlank(QueryText(s, search.text)))
    ensures search.Text? && p.Refuse? ==> p.message == NO_TEXT_TEXT
    ensures search.Text? && p.Fetch? ==>
              p.query.filter == ByName(Trim(QueryText(s, search.text)))
              && p.query.filter.search != "" && IsTrimmed(p.query.filter.search)
    ensures p.Fetch? ==> p.query.ordering == s.ordering && p.query.page == s.page && p.query.pageSize == s.pageSize
  {
    match search
    case All => Fetch(Query(AllGames, s.ordering, s.page, s.pageSize))
    case Genre =>
      if s.genreId == "" then Refuse(NO_GENRE_TEXT)
      else Fetch(Query(ByGenre(s.genreId), s.ordering, s.page, s.pageSize))
    case Platform =>
      if s.platformId == "" then Refuse(NO_PLATFORM_TEXT)
      else Fetch(Query(ByPlatform(s.platformId), s.ordering, s.page, s.pageSize))
    case Text(text) =>
      var query := QueryText(s, text);
      if Trim(query) == "" then Refuse(NO_TEXT_TEXT)
      else Fetch(Query(ByName(Trim(query)), s.ordering, s.page, s.pageSize))
  }

  /** The actions a plan dispatches, given the catalog's answers. */
  function Emitted(p: Plan, catalog: Query -> CatalogReply): (trace: seq<Action>)
    ensures p.Refuse? ==> trace == [FetchError(p.message)]
    ensures p.Fetch? ==> trace == [FetchStart, Outcome(catalog(p.query))]
  {
    match p
    case Refuse(message) => [FetchError(message)]
    case Fetch(query) => [FetchStart, Outcome(catalog(query))]
  }

  /** The requests a plan sends: none when it refuses. */
  function Issued(p: Plan): (qs: seq<Query>)
    ensures |qs| <= 1
    ensures qs == [] <==> p.Refuse?
    ensures p.Fetch? ==> qs == [p.query]
  {
    match p
    case Refuse(_) => []
    case Fetch(query) => [query]
  }

  /** A refused search only shows its message: the results on screen, the
      filters and the page stay as they were. */
  lemma RefusalKeepsResults(s: State, search: Search, catalog: Query -> CatalogReply)
    requires PlanSearch(s, search).Refuse?
    ensures ReduceAll(s, Emitted(PlanSearch(s, search), catalog)) ==
              s.(loading := false, error := Some(PlanSearch(s, search).message))
  {
    assert [FetchError(PlanSearch(s, search).message)][1..] == [];
  }

  /** The provider: the rendered state the search callbacks read, the
      actions dispatched since that render, and the requests sent. */
  class Provider {
    var state: State
    var pending: seq<Action>
    var requests: seq<Query>

    constructor ()
      ensures state == Initial() && pending == [] && requests == []
    {
      state := Initial();
      pending := [];
      requests := [];
    }

    /** `dispatch(action)`: queued until the next render. */
    method Dispatch(a: Action)
      modifies this
      ensures pending == old(pending) + [a]
      ensures state == old(state) && requests == old(requests)
    {
      pending := pending + [a];
    }

    /** A render: the queued actions go through the reducer. */
    method Render()
      modifies this
      ensures state == ReduceAll(old(state), old(pending))
      ensures pending == [] && requests == old(requests)
    {
      state := ReduceAll(state, pending);
      pending := [];
    }

    /** `fetchGames(params)`: FETCH_START, the request, then exactly one of
        FETCH_SUCCESS and FETCH_ERROR. */
    method FetchGames(q: Query, catalog: Query -> CatalogReply)
      modifies this
      ensures requests == old(requests) + [q]
      ensures pending == old(pending) + [FetchStart, Outcome(catalog(q))]
      ensures state == old(state)
    {
      Dispatch(FetchStart);
      requests := requests + [q];
      var reply := catalog(q);
      match reply {
        case Page(results, count) => Dispatch(FetchSuccess(results, count));
        case Failed(message) => Dispatch(FetchError(message));
      }
    }

    /** `searchAll()`. */
    method SearchAll(catalog: Query -> CatalogReply)
      modifies this
      ensures pending == old(pending) + Emitted(PlanSearch(old(state), All), catalog)
      ensures requests == old(requests) + Issued(PlanSearch(old(state), All))
      ensures state == old(state)
    {
      FetchGames(Query(AllGames, state.ordering, state.page, state.pageSize), catalog);
    }

    /** `searchByGenre()`. */
    method SearchByGenre(catalog: Query -> CatalogReply)
      modifies this
      ensures pending == old(pending) + Emitted(PlanSearch(old(state), Genre), catalog)
      ensures requests == old(requests) + Issued(PlanSearch(old(state), Genre))
      ensures state == old(state)
    {
      if state.genreId == "" {
        Dispatch(FetchError(NO_GENRE_TEXT));
        return;
      }
      FetchGames(Query(ByGenre(state.genreId), state.ordering, state.page, state.pageSize), catalog);
    }

    /** `searchByPlatform()`. */
    method SearchByPlatform(catalog: Query -> CatalogReply)
      modifies this
      ensures pending == old(pending) + Emitted(PlanSearch(old(state), Platform), catalog)
      ensures requests == old(requests) + Issued(PlanSearch(old(state), Platform))
      ensures state == old(state)
    {
      if state.platformId == "" {
        Dispatch(FetchError(NO_PLATFORM_TEXT));
        return;
      }
      FetchGames(Query(ByPlatform(state.platformId), state.ordering, state.page, state.pageSize), catalog);
    }

    /** `searchByText(text)`. */
    method SearchByText(text: Option<string>, catalog: Query -> CatalogReply)
      modifies this
      ensures pending == old(pending) + Emitted(PlanSearch(old(state), Text(text)), catalog)
      ensures requests == old(requests) + Issued(PlanSearch(old(state), Text(text)))
      ensures state == old(state)
    {
      var query := if text.Some? then text.value else state.searchText;
      var trimmed := Trim(query);
      ghost var plan := PlanSearch(state, Text(text));
      assert trimmed == "" <==> plan.Refuse?;
      if trimmed == "" {
        Dispatch(FetchError(NO_TEXT_TEXT));
        return;
      }
      var q := Query(ByName(trimmed), state.ordering, state.page, state.pageSize);
      assert plan == Fetch(q);
      FetchGames(q, catalog);
    }

    /** Runs the named search. */
    method Run(search: Search, catalog: Query -> CatalogReply)
      modifies this
      ensures pending == old(pending) + Emitted(PlanSearch(old(state), search), catalog)
      ensures requests == old(requests) + Issued(PlanSearch(old(state), search))
      ensures state == old(state)
    {
      match search {
        case All => SearchAll(catalog);
        case Genre => SearchByGenre(catalog);
        case Platform => SearchByPlatform(catalog);
        case Text(text) => SearchByText(text, catalog);
      }
    }
  }
}

=== FILE: pager.dfy ===
/** The pager under the result list: hidden while there is nothing to page
    through, at most 1000 pages, and on a page change it selects the page and
    repeats the search the filled-in fields point to. */
module Pager {
  import opened Util
  import opened Text
  import opened GameContext

  /** The catalog serves at most this many pages. */
  const MAX_PAGES: nat := 1000

  /** `Math.min(Math.ceil(total / pageSize), 1000)` for a positive total; a
      zero page size makes the quotient infinite, so the cap applies. */
  function TotalPages(total: nat, pageSize: nat): (r: nat)
    requires total > 0
    ensures 1 <= r <= MAX_PAGES
    ensures pageSize == 0 ==> r == MAX_PAGES
    ensures pageSize > 0 ==> (r - 1) * pageSize < total
    ensures pageSize > 0 && total <= MAX_PAGES * pageSize ==> total <= r * pageSize
    ensures pageSize > 0 && total > MAX_PAGES * pageSize ==> r == MAX_PAGES
  {
    if pageSize == 0 then MAX_PAGES
    else
      var pages := CeilDiv(total, pageSize);
      if pages > MAX_PAGES then
        MulMonotone(MAX_PAGES - 1, pages - 1, pageSize);
        MulMonotone(MAX_PAGES, pages - 1, pageSize);
        MAX_PAGES
      else
        MulMonotone(pages, MAX_PAGES, pageSize);
        pages
  }

  lemma MulMonotone(a: nat, b: nat, c: nat)
    requires a <= b
    ensures a * c <= b * c
  {
  }

  /** The integer ceiling of `a / b`. */
  function CeilDiv(a: nat, b: nat): (c: nat)
    requires b > 0
    ensures (c - 1) * b < a <= c * b
  {
    var c := (a + b - 1) / b;
    DivBounds(a + b - 1, b);
    c
  }

  lemma DivBounds(a: nat, b: nat)
    requires b > 0
    ensures (a / b) * b <= a < (a / b) * b + b
  {
  }

  /** What the pager shows: the total, the current page and the page count. */
  datatype PagerView = PagerView(total: nat, page: int, count: nat)

  /** The pager's render: nothing when the total is 0. */
  function View(s: State): (v: Option<PagerView>)
    ensures v.None? <==> s.total == 0
    ensures v.Some? ==> v.value.total == s.total && v.value.page == s.page
    ensures v.Some? ==> v.value.count == TotalPages(s.total, s.pageSize)
  {
    if s.total == 0 then None
    else Some(PagerView(s.total, s.page, TotalPages(s.total, s.pageSize)))
  }

  /** `lastAction`: the search to repeat, by priority text, genre, platform,
      then all games.  The text search runs without an argument. */
  function LastAction(s: State): (search: Search)
    ensures s.searchText != "" ==> search == Text(None)
    ensures s.searchText == "" && s.genreId != "" ==> search == Genre
    ensures s.searchText == "" && s.genreId == "" && s.platformId != "" ==> search == Platform
    ensures search == All <==> s.searchText == "" && s.genreId == "" && s.platformId == ""
  {
    if s.searchText != "" then Text(None)
    else if s.genreId != "" then Genre
    else if s.platformId != "" then Platform
    else All
  }

  /** The repeated search refuses only when the search text is made of
      blanks; every other state it is chosen in lets it fetch. */
  lemma RepeatRefusesOnlyBlankText(s: State)
    ensures PlanSearch(s, LastAction(s)).Refuse? <==> s.searchText != "" && IsBlank(s.searchText)
  {
    if s.searchText != "" {
      assert QueryText(s, None) == s.searchText;
    }
  }

  /** `onChange(_, p)`: SET_PAGE with the new page, then the search chosen
      when the pager was rendered.  Only a rendered pager has the handler. */
  method OnChange(g: Provider, p: int, catalog: Query -> CatalogReply)
    requires View(g.state).Some?
    modifies g
    ensures g.pending == old(g.pending) + [SetPage(p)] + Emitted(PlanSearch(old(g.state), LastAction(old(g.state))), catalog)
    ensures g.requests == old(g.requests) + Issued(PlanSearch(old(g.state), LastAction(old(g.state))))
    ensures g.state == old(g.state)
  {
    var search := LastAction(g.state);
    g.Dispatch(SetPage(p));
    g.Run(search, catalog);
  }

  /** Once rendered, a page change shows the chosen page, but the search it
      repeats read the state of the previous render, so the request asks
      for the page that was shown before the change. */
  lemma PageChangeRequestsShownPage(s: State, p: int, catalog: Query -> CatalogReply)
    ensures ReduceAll(s, [SetPage(p)] + Emitted(PlanSearch(s, LastAction(s)), catalog)).page == p
    ensures PlanSearch(s, LastAction(s)).Fetch? ==> PlanSearch(s, LastAction(s)).query.page == s.page
  {
    var trace := Emitted(PlanSearch(s, LastAction(s)), catalog);
    ReduceAllAppend(s, [SetPage(p)], trace);
    assert [SetPage(p)][1..] == [];
    assert ReduceAll(s, [SetPage(p)]) == s.(page := p);
    assert forall k :: 0 <= k < |trace| ==> trace[k].IsFetch();
  }
}

=== FILE: review_routes.dfy ===
/** The /reviews routes: every handler runs after the bearer-token gate, so
    the caller's id is known.  The reviews collection is a `ReviewStore`
    object whose `rows` the create, update and delete handlers change; list
    and get only read it. */
module ReviewRoutes {
  import opened Util
  import UserSchema
  import opened Text
  import opened ReviewSchema

  /** Response bodies of the review routes. */
  datatype Body =
    | Errors(messages: seq<string>)   // validator messages, in rule order
    | Message(text: string)
    | One(review: Review)
    | Many(reviews: seq<Review>)

  type Response = Reply<Body>

  const NOT_FOUND_TEXT: string := "Avaliação não encontrada"
  const FORBIDDEN_TEXT: string := "Acesso não autorizado"
  const DUPLICATE_TEXT: string := "Você já avaliou este jogo"
  const REMOVED_TEXT: string := "Avaliação removida"

  const GAME_ID_ERROR: string := "ID do jogo inválido"
  const SLUG_ERROR: string := "Slug é obrigatório"
  const NAME_ERROR: string := "Nome do jogo é obrigatório"
  const RATING_ERROR: string := "Nota deve ser entre 1 e 10"
  const DESCRIPTION_ERROR: string := "Descrição é obrigatória"
  const DESCRIPTION_IF_GIVEN_ERROR: string := "Descrição é obrigatória se fornecida"

  // ---------------------------------------------------------------- list

  /** The `$or` of two case-insensitive matches on the game name and slug;
      an empty (or absent) search matches everything. */
  predicate MatchesSearch(r: Review, search: string) {
    search == "" || ContainsIgnoringCase(r.name, search) || ContainsIgnoringCase(r.slug, search)
  }

  /** The documents `find({ userId: caller, ... })` selects, in store order. */
  function Select(rows: seq<Review>, caller: UserSchema.UserId, search: string): (r: seq<Review>)
    ensures forall x :: x in r <==> x in rows && x.userId == caller && MatchesSearch(x, search)
    ensures forall x :: x in rows && x.userId == caller && MatchesSearch(x, search) ==>
              multiset(r)[x] == multiset(rows)[x]
    decreases |rows|
  {
    if rows == [] then []
    else
      var rest := Select(rows[1..], caller, search);
      assert rows == [rows[0]] + rows[1..];
      if rows[0].userId == caller && MatchesSearch(rows[0], search) then [rows[0]] + rest else rest
  }

  /** Ordered by creation time, newest first (`sort({ createdAt: -1 })`). */
  predicate NewestFirst(s: seq<Review>) {
    forall i, j :: 0 <= i < j < |s| ==> s[i].createdAt >= s[j].createdAt
  }

  function InsertNewestFirst(x: Review, s: seq<Review>): (r: seq<Review>)
    requires NewestFirst(s)
    ensures NewestFirst(r)
    ensures multiset(r) == multiset(s) + multiset{x}
    decreases |s|
  {
    if s == [] || x.createdAt >= s[0].createdAt then
      InsertAtHead(x, s);
      [x] + s
    else
      var rest := InsertNewestFirst(x, s[1..]);
      InsertBelowHead(x, s, rest);
      [s[0]] + rest
  }

  /** A review no older than the head of a newest-first sequence may head it. */
  lemma InsertAtHead(x: Review, s: seq<Review>)
    requires NewestFirst(s)
    requires s == [] || x.createdAt >= s[0].createdAt
    ensures NewestFirst([x] + s)
    ensures multiset([x] + s) == multiset(s) + multiset{x}
  {
    var r := [x] + s;
    assert forall k :: 1 <= k < |r| ==> r[k] == s[k - 1];
  }

  /** Keeping the head of a newest-first sequence in front of a newest-first
      insertion into its tail. */
  lemma InsertBelowHead(x: Review, s: seq<Review>, rest: seq<Review>)
    requires NewestFirst(s) && s != [] && x.createdAt < s[0].createdAt
    requires NewestFirst(rest) && multiset(rest) == multiset(s[1..]) + multiset{x}
    ensures NewestFirst([s[0]] + rest)
    ensures multiset([s[0]] + rest) == multiset(s) + multiset{x}
  {
    assert s == [s[0]] + s[1..];
    assert multiset(rest) == multiset(s[1..] + [x]);
    NoNewerAfterPermuting(rest, s[1..] + [x], s[0].createdAt);
    var r := [s[0]] + rest;
    assert forall k :: 1 <= k < |r| ==> r[k] == rest[k - 1];
  }

  /** A permutation of a sequence with no review newer than `t` has none
      either. */
  lemma NoNewerAfterPermuting(a: seq<Review>, b: seq<Review>, t: int)
    requires multiset(a) == multiset(b)
    requires forall k :: 0 <= k < |b| ==> b[k].createdAt <= t
    ensures forall k :: 0 <= k < |a| ==> a[k].createdAt <= t
  {
    forall k | 0 <= k < |a| ensures a[k].createdAt <= t {
      assert a[k] in multiset(b);
      var j :| 0 <= j < |b| && b[j] == a[k];
    }
  }

  /** A newest-first permutation of `s`. */
  function SortNewestFirst(s: seq<Review>): (r: seq<Review>)
    ensures NewestFirst(r)
    ensures multiset(r) == multiset(s)
    decreases |s|
  {
    if s == [] then []
    else
      assert s == [s[0]] + s[1..];
      InsertNewestFirst(s[0], SortNewestFirst(s[1..]))
  }

  // ----------------------------------------------------------- lookups

  /** Outcome of `findById` followed by the ownership test. */
  datatype Lookup = Missing | OtherOwner | Owned(index: nat)

  /** The 404-then-403 decision shared by get, update and delete. */
  function Locate(rows: seq<Review>, id: ReviewId, caller: UserSchema.UserId): (a: Lookup)
    requires IdsUnique(rows)
    ensures a.Missing? <==> forall k :: 0 <= k < |rows| ==> rows[k].id != id
    ensures a.OtherOwner? <==> exists k :: 0 <= k < |rows| && rows[k].id == id && rows[k].userId != caller
    ensures a.Owned? ==> a.index < |rows| && rows[a.index].id == id && rows[a.index].userId == caller
  {
    match FindIndex(rows, (r: Review) => r.id == id)
    case None => Missing
    case Some(i) => if rows[i].userId != caller then OtherOwner else Owned(i)
  }

  // -------------------------------------------------------- validation

  /** A POST /reviews body after the JSON parser.  `gameId` and `rating`
      are None when absent or not an integer; a missing string is "". */
  datatype NewReviewRequest = NewReviewRequest(
    gameId: Option<int>,
    slug: string,
    name: string,
    rating: Option<int>,
    description: string,
    comment: Option<string>)

  /** The messages of the POST /reviews validation chain, in rule order. */
  function CreateErrors(b: NewReviewRequest): (errs: seq<string>)
    ensures errs == [] <==>
              b.gameId.Some? && b.slug != "" && b.name != ""
              && b.rating.Some? && RatingInRange(b.rating.value) && b.description != ""
    ensures (GAME_ID_ERROR in errs) <==> b.gameId.None?
    ensures (SLUG_ERROR in errs) <==> b.slug == ""
    ensures (NAME_ERROR in errs) <==> b.name == ""
    ensures (RATING_ERROR in errs) <==> b.rating.None? || !RatingInRange(b.rating.value)
    ensures (DESCRIPTION_ERROR in errs) <==> b.description == ""
  {
    (if b.gameId.None? then [GAME_ID_ERROR] else [])
    + (if b.slug == "" then [SLUG_ERROR] else [])
    + (if b.name == "" then [NAME_ERROR] else [])
    + (if b.rating.None? || !RatingInRange(b.rating.value) then [RATING_ERROR] else [])
    + (if b.description == "" then [DESCRIPTION_ERROR] else [])
  }

  /** A PUT /reviews/:id body: each field is None when not supplied. */
  datatype ReviewPatch = ReviewPatch(rating: Option<int>, description: Option<string>, comment: Option<string>)

  /** The messages of the PUT /reviews/:id validation chain: both rules are
      optional, so an absent field never fails. */
  function UpdateErrors(p: ReviewPatch): (errs: seq<string>)
    ensures errs == [] <==>
              (p.rating.Some? ==> RatingInRange(p.rating.value))
              && (p.description.Some? ==> p.description.value != "")
    ensures (RATING_ERROR in errs) <==> p.rating.Some? && !RatingInRange(p.rating.value)
    ensures (DESCRIPTION_IF_GIVEN_ERROR in errs) <==> p.description.Some? && p.description.value == ""
  {
    (if p.rating.Some? && !RatingInRange(p.rating.value) then [RATING_ERROR] else [])
    + (if p.description.Some? && p.description.value == "" then [DESCRIPTION_IF_GIVEN_ERROR] else [])
  }

  /** The review after a successful update: only rating, description and
      comment can change, each only when supplied, and updatedAt is set. */
  function Patched(r: Review, p: ReviewPatch, now: nat): (r': Review)
    ensures r'.id == r.id && r'.userId == r.userId && r'.gameId == r.gameId
    ensures r'.slug == r.slug && r'.name == r.name && r'.createdAt == r.createdAt
    ensures r'.rating == (if p.rating.Some? then p.rating.value else r.rating)
    ensures r'.description == (if p.description.Some? then p.description.value else r.description)
    ensures r'.comment == (if p.comment.Some? then p.comment else r.comment)
    ensures r'.updatedAt == now
    ensures Conforms(r) && UpdateErrors(p) == [] ==> Conforms(r')
  {
    r.(rating := p.rating.GetOr(r.rating),
       description := p.description.GetOr(r.description),
       comment := if p.comment.Some? then p.comment else r.comment,
       updatedAt := now)
  }

  // ------------------------------------------------------------- store

  class ReviewStore {
    var rows: seq<Review>
    var nextId: nat

    ghost predicate Valid()
      reads this
    {
      Consistent(rows) && forall k :: 0 <= k < |rows| ==> rows[k].id < nextId
    }

    constructor ()
      ensures Valid() && rows == []
    {
      rows := [];
      nextId := 0;
    }

    /** GET /reviews?search=: the caller's reviews matching the search,
        newest first. */
    function List(caller: UserSchema.UserId, search: string): (r: seq<Review>)
      reads this
      ensures forall x :: x in r ==> x in rows && x.userId == caller
      ensures forall x :: x in r ==> MatchesSearch(x, search)
      ensures forall x :: x in rows && x.userId == caller && MatchesSearch(x, search) ==> x in r
      ensures search == "" ==> forall x :: x in rows && x.userId == caller ==> x in r
      ensures forall x :: x in r ==> multiset(r)[x] == multiset(rows)[x]
      ensures NewestFirst(r)
    {
      var selected := Select(rows, caller, search);
      var r := SortNewestFirst(selected);
      assert forall x :: x in r <==> x in selected by {
        forall x ensures x in r <==> x in selected {
          assert x in r <==> x in multiset(r);
        }
      }
      r
    }

    /** GET /reviews/:id. */
    function Get(caller: UserSchema.UserId, id: ReviewId): (resp: Response)
      requires Valid()
      reads this
      ensures resp.status == NOT_FOUND <==> forall k :: 0 <= k < |rows| ==> rows[k].id != id
      ensures resp.status == FORBIDDEN <==>
                exists k :: 0 <= k < |rows| && rows[k].id == id && rows[k].userId != caller
      ensures resp.status in {OK, NOT_FOUND, FORBIDDEN}
      ensures resp.status == NOT_FOUND ==> resp.body == Message(NOT_FOUND_TEXT)
      ensures resp.status == FORBIDDEN ==> resp.body == Message(FORBIDDEN_TEXT)
      ensures resp.status == OK ==>
                resp.body.One? && resp.body.review in rows
                && resp.body.review.id == id && resp.body.review.userId == caller
    {
      match Locate(rows, id, caller)
      case Missing => Reply(NOT_FOUND, Message(NOT_FOUND_TEXT))
      case OtherOwner => Reply(FORBIDDEN, Message(FORBIDDEN_TEXT))
      case Owned(i) => Reply(OK, One(rows[i]))
    }

    /** POST /reviews: validate, then insert; the unique index turns a second
        review of the same game by the same user into 409. */
    method Create(caller: UserSchema.UserId, req: NewReviewRequest, now: nat) returns (resp: Response)
      requires Valid()
      modifies this
      ensures Valid()
      ensures CreateErrors(req) != [] ==>
                resp == Reply(BAD_REQUEST, Errors(CreateErrors(req)))
                && rows == old(rows) && nextId == old(nextId)
      ensures CreateErrors(req) == [] && PairTaken(old(rows), caller, req.gameId.value) ==>
                resp == Reply(CONFLICT, Message(DUPLICATE_TEXT))
                && rows == old(rows) && nextId == old(nextId)
      ensures CreateErrors(req) == [] && !PairTaken(old(rows), caller, req.gameId.value) ==>
                rows == old(rows) + [NewReview(old(nextId), caller, req.gameId.value, req.slug, req.name,
                                               req.rating.value, req.description, req.comment, now)]
                && resp == Reply(CREATED, One(rows[|rows| - 1]))
                && nextId == old(nextId) + 1
    {
      var errors := CreateErrors(req);
      if errors != [] {
        return Reply(BAD_REQUEST, Errors(errors));
      }
      var review := NewReview(nextId, caller, req.gameId.value, req.slug, req.name,
                              req.rating.value, req.description, req.comment, now);
      InsertKeepsConsistent(rows, review);
      if PairTaken(rows, caller, req.gameId.value) {
        // duplicate key (code 11000)
        return Reply(CONFLICT, Message(DUPLICATE_TEXT));
      }
      rows := rows + [review];
      nextId := nextId + 1;
      resp := Reply(CREATED, One(review));
    }

    /** PUT /reviews/:id: validation first, then 404, then 403; on success
        only the supplied fields of that one review change. */
    method Update(caller: UserSchema.UserId, id: ReviewId, patch: ReviewPatch, now: nat) returns (resp: Response)
      requires Valid()
      modifies this
      ensures Valid() && nextId == old(nextId)
      ensures UpdateErrors(patch) != [] ==>
                resp == Reply(BAD_REQUEST, Errors(UpdateErrors(patch))) && rows == old(rows)
      ensures UpdateErrors(patch) == [] && Locate(old(rows), id, caller).Missing? ==>
                resp == Reply(NOT_FOUND, Message(NOT_FOUND_TEXT)) && rows == old(rows)
      ensures UpdateErrors(patch) == [] && Locate(old(rows), id, caller).OtherOwner? ==>
                resp == Reply(FORBIDDEN, Message(FORBIDDEN_TEXT)) && rows == old(rows)
      ensures UpdateErrors(patch) == [] && Locate(old(rows), id, caller).Owned? ==>
                var i := Locate(old(rows), id, caller).index;
                rows == old(rows)[i := Patched(old(rows)[i], patch, now)]
                && resp == Reply(OK, One(rows[i]))
    {
      var errors := UpdateErrors(patch);
      if errors != [] {
        return Reply(BAD_REQUEST, Errors(errors));
      }
      match Locate(rows, id, caller)
      case Missing =>
        resp := Reply(NOT_FOUND, Message(NOT_FOUND_TEXT));
      case OtherOwner =>
        resp := Reply(FORBIDDEN, Message(FORBIDDEN_TEXT));
      case Owned(i) =>
        var review := rows[i];
        if patch.rating.Some? { review := review.(rating := patch.rating.value); }
        if patch.description.Some? { review := review.(description := patch.description.value); }
        if patch.comment.Some? { review := review.(comment := patch.comment); }
        review := review.(updatedAt := now);
        assert review == Patched(rows[i], patch, now);
        ReplaceKeepsConsistent(rows, i, review);
        rows := rows[i := review];
        resp := Reply(OK, One(review));
    }

    /** DELETE /reviews/:id: 404, then 403; on success exactly that review
        is removed. */
    method Delete(caller: UserSchema.UserId, id: ReviewId) returns (resp: Response)
      requires Valid()
      modifies this
      ensures Valid() && nextId == old(nextId)
      ensures Locate(old(rows), id, caller).Missing? ==>
                resp == Reply(NOT_FOUND, Message(NOT_FOUND_TEXT)) && rows == old(rows)
      ensures Locate(old(rows), id, caller).OtherOwner? ==>
                resp == Reply(FORBIDDEN, Message(FORBIDDEN_TEXT)) && rows == old(rows)
      ensures Locate(old(rows), id, caller).Owned? ==>
                var i := Locate(old(rows), id, caller).index;
                rows == old(rows)[..i] + old(rows)[i + 1..]
                && resp == Reply(OK, Message(REMOVED_TEXT))
                && (forall x :: x in rows <==> x in old(rows) && x.id != id)
    {
      match Locate(rows, id, caller)
      case Missing =>
        resp := Reply(NOT_FOUND, Message(NOT_FOUND_TEXT));
      case OtherOwner =>
        resp := Reply(FORBIDDEN, Message(FORBIDDEN_TEXT));
      case Owned(i) =>
        RemoveKeepsConsistent(rows, i);
        rows := rows[..i] + rows[i + 1..];
        resp := Reply(OK, Message(REMOVED_TEXT));
    }
  }
}

=== FILE: review_schema.dfy ===
/** The stored review record and the constraints the document schema puts on
    it: required fields, the 1..10 rating range, the unique document id and
    the unique (userId, rawg_game_id) index. */
module ReviewSchema {
  import opened Util
  import UserSchema

  type ReviewId = nat

  /** One review document.  Times are milliseconds since the epoch. */
  datatype Review = Review(
    id: ReviewId,
    userId: UserSchema.UserId,
    gameId: int,            // rawg_game_id
    slug: string,           // rawg_game_slug
    name: string,           // rawg_game_name
    rating: int,
    description: string,
    comment: Option<string>,
    createdAt: nat,
    updatedAt: nat)

  predicate RatingInRange(rating: int) {
    1 <= rating <= 10
  }

  /** The schema's per-document rules: slug, name and description are
      required (a required string may not be empty), the rating lies in
      1..10; the comment is optional. */
  predicate Conforms(r: Review) {
    r.slug != "" && r.name != "" && r.description != "" && RatingInRange(r.rating)
  }

  /** The document ids are distinct. */
  predicate IdsUnique(rows: seq<Review>) {
    forall i, j :: 0 <= i < j < |rows| ==> rows[i].id != rows[j].id
  }

  /** The unique compound index on (userId, rawg_game_id). */
  predicate PairsUnique(rows: seq<Review>) {
    forall i, j :: 0 <= i < j < |rows| ==>
      rows[i].userId != rows[j].userId || rows[i].gameId != rows[j].gameId
  }

  /** Some stored review already has this (userId, rawg_game_id) pair. */
  predicate PairTaken(rows: seq<Review>, userId: UserSchema.UserId, gameId: int) {
    exists i :: 0 <= i < |rows| && rows[i].userId == userId && rows[i].gameId == gameId
  }

  /** The invariant of the reviews collection. */
  predicate Consistent(rows: seq<Review>) {
    IdsUnique(rows) && PairsUnique(rows)
    && forall i :: 0 <= i < |rows| ==> Conforms(rows[i])
  }

  /** A new document as the schema builds it: both timestamps default to the
      creation time. */
  function NewReview(id: ReviewId, userId: UserSchema.UserId, gameId: int, slug: string, name: string,
                     rating: int, description: string, comment: Option<string>, now: nat): (r: Review)
    ensures r.id == id && r.userId == userId && r.gameId == gameId
    ensures r.createdAt == now && r.updatedAt == now
  {
    Review(id, userId, gameId, slug, name, rating, description, comment, now, now)
  }

  /** Appending a conforming review with a fresh id and a fresh
      (userId, rawg_game_id) pair keeps the collection consistent; a taken
      pair is exactly what the index rejects. */
  lemma InsertKeepsConsistent(rows: seq<Review>, r: Review)
    requires Consistent(rows) && Conforms(r)
    requires forall i :: 0 <= i < |rows| ==> rows[i].id != r.id
    ensures PairsUnique(rows + [r]) <==> !PairTaken(rows, r.userId, r.gameId)
    ensures !PairTaken(rows, r.userId, r.gameId) ==> Consistent(rows + [r])
  {
    var rows' := rows + [r];
    if PairTaken(rows, r.userId, r.gameId) {
      var i :| 0 <= i < |rows| && rows[i].userId == r.userId && rows[i].gameId == r.gameId;
      assert rows'[i] == rows[i] && rows'[|rows|] == r;
    } else {
      forall i, j | 0 <= i < j < |rows'|
        ensures rows'[i].userId != rows'[j].userId || rows'[i].gameId != rows'[j].gameId
      {
        if j == |rows| { assert rows'[i] == rows[i]; }
      }
    }
  }

  /** Replacing a review by one with the same id, owner and game, that still
      conforms, keeps the collection consistent. */
  lemma ReplaceKeepsConsistent(rows: seq<Review>, i: nat, r: Review)
    requires Consistent(rows) && i < |rows| && Conforms(r)
    requires r.id == rows[i].id && r.userId == rows[i].userId && r.gameId == rows[i].gameId
    ensures Consistent(rows[i := r])
  {
  }

  /** Removing the review at `i` keeps the collection consistent and removes
      exactly the reviews with its id: that one, since ids are unique. */
  lemma RemoveKeepsConsistent(rows: seq<Review>, i: nat)
    requires Consistent(rows) && i < |rows|
    ensures Consistent(rows[..i] + rows[i + 1..])
    ensures forall x :: x in rows[..i] + rows[i + 1..] <==> x in rows && x.id != rows[i].id
  {
    var rest := rows[..i] + rows[i + 1..];
    assert forall k :: 0 <= k < |rest| ==> rest[k] == rows[if k < i then k else k + 1];
    forall x ensures x in rest <==> x in rows && x.id != rows[i].id {
      if x in rows && x.id != rows[i].id {
        var k :| 0 <= k < |rows| && rows[k] == x;
        if k < i { assert rest[k] == x; } else { assert rest[k - 1] == x; }
      }
    }
  }
}

=== FILE: text.dfy ===
/** The string operations the application relies on, with JavaScript's
    meaning: `String.prototype.trim`, `split` on a one-character separator
    (and its inverse `join`), ASCII lower-casing and substring search. */
module Text {

  /** ECMAScript WhiteSpace and LineTerminator code points: the characters
      `trim` removes. */
  predicate IsSpace(c: char) {
    || c == '\t' || c == '\n' || c == '\U{0B}' || c == '\U{0C}' || c == '\r'
    || c == ' ' || c == '\U{A0}' || c == '\U{1680}'
    || ('\U{2000}' <= c <= '\U{200A}')
    || c == '\U{2028}' || c == '\U{2029}' || c == '\U{202F}' || c == '\U{205F}'
    || c == '\U{3000}' || c == '\U{FEFF}'
  }

  /** Every character of `s` is white space (JavaScript: `!s.trim()`). */
  predicate IsBlank(s: string) {
    forall k :: 0 <= k < |s| ==> IsSpace(s[k])
  }

  function TrimEnd(s: string): (r: string)
    ensures |r| <= |s| && r == s[..|r|]
    ensures forall k :: |r| <= k < |s| ==> IsSpace(s[k])
    ensures r != [] ==> !IsSpace(r[|r| - 1])
    decreases |s|
  {
    if |s| > 0 && IsSpace(s[|s| - 1]) then TrimEnd(s[..|s| - 1]) else s
  }

  /** The number of white-space characters `s` starts with. */
  function LeadingSpace(s: string): (n: nat)
    ensures n <= |s|
    ensures forall k :: 0 <= k < n ==> IsSpace(s[k])
    ensures n < |s| ==> !IsSpace(s[n])
    decreases |s|
  {
    if |s| > 0 && IsSpace(s[0]) then 1 + LeadingSpace(s[1..]) else 0
  }

  /** `s.trim()`: what is left of `s` once the white space at its start and
      at its end is dropped; the characters in between are kept in place. */
  function Trim(s: string): (r: string)
    ensures InfixAt(r, s, LeadingSpace(s)) && IsBlank(s[LeadingSpace(s) + |r|..])
    ensures IsTrimmed(r)
    ensures r == [] <==> IsBlank(s)
    decreases |s|
  {
    if |s| > 0 && IsSpace(s[0]) then
      assert forall k :: 1 <= k < |s| ==> s[k] == s[1..][k - 1];
      Trim(s[1..])
    else
      assert s != [] ==> TrimEnd(s) != [] by {
        if s != [] { TrimEndKeepsFirst(s); }
      }
      TrimEnd(s)
  }

  /** The trimmed string, character by character: it starts after the
      leading white space and only white space follows it. */
  lemma TrimValue(s: string)
    ensures var r, i := Trim(s), LeadingSpace(s);
            && i + |r| <= |s|
            && (forall k :: 0 <= k < |r| ==> r[k] == s[i + k])
            && (forall k :: i + |r| <= k < |s| ==> IsSpace(s[k]))
  {
    InfixBeforeBlanks(Trim(s), s, LeadingSpace(s));
  }

  /** An occurrence followed by blanks only, read character by character. */
  lemma InfixBeforeBlanks(r: string, s: string, i: nat)
    requires InfixAt(r, s, i) && IsBlank(s[i + |r|..])
    ensures i + |r| <= |s|
    ensures forall k :: 0 <= k < |r| ==> r[k] == s[i + k]
    ensures forall k :: i + |r| <= k < |s| ==> IsSpace(s[k])
  {
    assert forall k :: 0 <= k < |r| ==> r[k] == s[i..i + |r|][k];
    assert forall k :: i + |r| <= k < |s| ==> s[k] == s[i + |r|..][k - i - |r|];
  }

  lemma TrimEndKeepsFirst(t: string)
    requires t != [] && !IsSpace(t[0])
    ensures TrimEnd(t) != []
  {
  }

  /** Neither end of `s` is white space: `s` is what `trim` returns. */
  predicate IsTrimmed(s: string) {
    s == [] || (!IsSpace(s[0]) && !IsSpace(s[|s| - 1]))
  }

  lemma TrimKeepsTrimmed(s: string)
    requires IsTrimmed(s)
    ensures Trim(s) == s
  {
  }

  /** Trimming twice is trimming once. */
  lemma TrimIdempotent(s: string)
    ensures Trim(Trim(s)) == Trim(s)
  {
    TrimKeepsTrimmed(Trim(s));
  }

  /** ASCII lower-casing: 'A'..'Z' become 'a'..'z', all else is kept. */
  function LowerChar(c: char): (d: char)
    ensures 'A' <= c <= 'Z' ==> d as int == c as int + 32
    ensures !('A' <= c <= 'Z') ==> d == c
  {
    if 'A' <= c <= 'Z' then (c as int + 32) as char else c
  }

  /** No ASCII capital letter occurs in `s`. */
  predicate IsLower(s: string) {
    forall k :: 0 <= k < |s| ==> !('A' <= s[k] <= 'Z')
  }

  function Lower(s: string): (r: string)
    ensures |r| == |s|
    ensures forall k {:trigger r[k]} :: 0 <= k < |s| ==> r[k] == LowerChar(s[k])
    ensures IsLower(r)
    ensures IsLower(s) ==> r == s
    decreases |s|
  {
    if s == [] then [] else [LowerChar(s[0])] + Lower(s[1..])
  }

  /** Trimming a lower-case string leaves it lower-case. */
  lemma TrimKeepsLower(s: string)
    requires IsLower(s)
    ensures IsLower(Trim(s))
  {
  }

  lemma LowerIdempotent(s: string)
    ensures Lower(Lower(s)) == Lower(s)
  {
  }

  lemma LowerKeepsSpace(c: char)
    ensures IsSpace(LowerChar(c)) <==> IsSpace(c)
  {
  }

  lemma LowerTrimEndCommute(s: string)
    ensures TrimEnd(Lower(s)) == Lower(TrimEnd(s))
  {
    forall k | 0 <= k < |s| ensures IsSpace(Lower(s)[k]) <==> IsSpace(s[k]) {
      LowerKeepsSpace(s[k]);
    }
    TrimEndSameShape(Lower(s), s);
    LowerPrefix(s, |TrimEnd(s)|);
  }

  /** Strings with white space at the same positions lose the same number of
      characters to `TrimEnd`. */
  lemma {:induction false} TrimEndSameShape(a: string, b: string)
    requires |a| == |b|
    requires forall k :: 0 <= k < |a| ==> (IsSpace(a[k]) <==> IsSpace(b[k]))
    ensures |TrimEnd(a)| == |TrimEnd(b)|
    decreases |a|
  {
    if |a| > 0 && IsSpace(a[|a| - 1]) {
      TrimEndSameShape(a[..|a| - 1], b[..|b| - 1]);
    }
  }

  /** Lower-casing keeps a string blank or not blank. */
  lemma LowerKeepsBlank(s: string)
    ensures IsBlank(Lower(s)) <==> IsBlank(s)
  {
    forall k | 0 <= k < |s| ensures IsSpace(Lower(s)[k]) <==> IsSpace(s[k]) {
      LowerKeepsSpace(s[k]);
    }
  }

  /** Lower-casing a prefix is taking the prefix of the lower-cased string. */
  lemma LowerPrefix(s: string, n: nat)
    requires n <= |s|
    ensures Lower(s)[..n] == Lower(s[..n])
  {
    assert forall k :: 0 <= k < n ==> Lower(s)[..n][k] == Lower(s)[k] == Lower(s[..n])[k];
  }

  /** Lower-casing keeps white space where it was, so it commutes with trim. */
  lemma {:induction false} LowerTrimCommute(s: string)
    ensures Trim(Lower(s)) == Lower(Trim(s))
    decreases |s|
  {
    if |s| > 0 {
      LowerKeepsSpace(s[0]);
      if IsSpace(s[0]) {
        assert Lower(s)[1..] == Lower(s[1..]);
        LowerTrimCommute(s[1..]);
        return;
      }
    }
    LowerTrimEndCommute(s);
  }

  /** Lower-casing keeps the leading white space as long as it was. */
  lemma LeadingSpaceOfLower(s: string)
    ensures LeadingSpace(Lower(s)) == LeadingSpace(s)
  {
    forall k | 0 <= k < |s| ensures IsSpace(Lower(s)[k]) <==> IsSpace(s[k]) {
      LowerKeepsSpace(s[k]);
    }
  }

  /** Lower-casing then trimming keeps the characters between the white space
      at both ends of `s`, each lower-cased and in place. */
  lemma TrimLowerValue(s: string)
    ensures var e, i := Trim(Lower(s)), LeadingSpace(s);
            && i + |e| <= |s|
            && (forall k :: 0 <= k < |e| ==> e[k] == LowerChar(s[i + k]))
            && (forall k :: i + |e| <= k < |s| ==> IsSpace(s[k]))
  {
    TrimValue(Lower(s));
    LeadingSpaceOfLower(s);
    forall k | LeadingSpace(s) + |Trim(Lower(s))| <= k < |s| ensures IsSpace(s[k]) {
      assert IsSpace(Lower(s)[k]);
      LowerKeepsSpace(s[k]);
    }
  }

  /** `r` occurs in `s` at position `i`. */
  predicate InfixAt(r: string, s: string, i: int) {
    0 <= i <= |s| - |r| && s[i..i + |r|] == r
  }

  /** `p` occurs in `s` starting at position 0. */
  predicate IsPrefix(p: string, s: string) {
    |p| <= |s| && s[..|p|] == p
  }

  /** `s.includes(p)`, searched left to right. */
  predicate Contains(s: string, p: string)
    decreases |s|
  {
    IsPrefix(p, s) || (|s| > 0 && Contains(s[1..], p))
  }

  /** The search agrees with the positional definition of an occurrence. */
  lemma {:induction false} ContainsIffOccurs(s: string, p: string)
    ensures Contains(s, p) <==> exists i :: InfixAt(p, s, i)
    decreases |s|
  {
    if IsPrefix(p, s) {
      assert InfixAt(p, s, 0);
    } else if |s| > 0 {
      ContainsIffOccurs(s[1..], p);
      if exists i :: InfixAt(p, s, i) {
        var i :| InfixAt(p, s, i);
        assert InfixAt(p, s[1..], i - 1);
      }
      if Contains(s[1..], p) {
        var j :| InfixAt(p, s[1..], j);
        assert InfixAt(p, s, j + 1);
      }
    } else {
      assert forall i :: InfixAt(p, s, i) ==> i == 0 && IsPrefix(p, s);
    }
  }

  /** Case-insensitive substring test (ASCII letters only). */
  predicate ContainsIgnoringCase(s: string, p: string) {
    Contains(Lower(s), Lower(p))
  }

  /** `s.split(sep)` for a one-character separator: the fields between
      separators, one more than there are separators in `s`. */
  function Split(s: string, sep: char): (r: seq<string>)
    ensures |r| >= 1
    ensures forall k :: 0 <= k < |r| ==> sep !in r[k]
    ensures |r| == 1 <==> sep !in s
    decreases |s|
  {
    if |s| == 0 then [""]
    else
      var rest := Split(s[1..], sep);
      if s[0] == sep then [""] + rest
      else
        assert sep !in [s[0]] + rest[0];
        [[s[0]] + rest[0]] + rest[1..]
  }

  /** `parts.join(sep)`. */
  function Join(parts: seq<string>, sep: char): string
    requires |parts| >= 1
    decreases |parts|
  {
    if |parts| == 1 then parts[0] else parts[0] + [sep] + Join(parts[1..], sep)
  }

  /** Joining the fields restores the string. */
  lemma {:induction false} JoinSplit(s: string, sep: char)
    ensures Join(Split(s, sep), sep) == s
    decreases |s|
  {
    if |s| > 0 {
      var rest := Split(s[1..], sep);
      JoinSplit(s[1..], sep);
      if s[0] == sep {
        assert s == [sep] + s[1..];
      } else if |rest| == 1 {
        assert s == [s[0]] + s[1..];
      } else {
        assert Join(rest, sep) == rest[0] + [sep] + Join(rest[1..], sep);
        assert Split(s, sep)[1..] == rest[1..];
        assert s == [s[0]] + s[1..];
      }
    }
  }

  /** Splitting a join of separator-free fields gives the fields back. */
  lemma {:induction false} SplitJoin(parts: seq<string>, sep: char)
    requires |parts| >= 1
    requires forall k :: 0 <= k < |parts| ==> sep !in parts[k]
    ensures Split(Join(parts, sep), sep) == parts
    decreases |parts|, |parts[0]|
  {
    var w := parts[0];
    if |w| > 0 {
      var parts' := [w[1..]] + parts[1..];
      var j, j' := Join(parts, sep), Join(parts', sep);
      assert j == [w[0]] + j' by {
        if |parts| > 1 {
          assert parts'[1..] == parts[1..];
          assert w == [w[0]] + w[1..];
        }
      }
      assert forall k :: 0 <= k < |parts'| ==> sep !in parts'[k] by {
        assert forall k :: 0 <= k < |w[1..]| ==> w[1..][k] == w[k + 1];
      }
      SplitJoin(parts', sep);
      assert Split(j, sep) == [[w[0]] + parts'[0]] + parts'[1..] by {
        assert j[1..] == j';
      }
      assert parts == [[w[0]] + parts'[0]] + parts'[1..] by {
        assert w == [w[0]] + w[1..];
      }
    } else if |parts| > 1 {
      var j, j' := Join(parts, sep), Join(parts[1..], sep);
      SplitJoin(parts[1..], sep);
      assert Split(j, sep) == [""] + parts[1..] by {
        assert j == [sep] + j';
        assert j[1..] == j';
      }
      assert parts == [""] + parts[1..];
    }
  }

  /** A separator-free first word is split off as the first field, and the
      rest of the string is split independently of it. */
  lemma SplitAfterWord(w: string, sep: char, rest: string)
    requires sep !in w
    ensures Split(w + [sep] + rest, sep) == [w] + Split(rest, sep)
  {
    var parts := [w] + Split(rest, sep);
    JoinSplit(rest, sep);
    assert Join(parts, sep) == w + [sep] + rest by {
      assert parts[1..] == Split(rest, sep);
    }
    SplitJoin(parts, sep);
  }
}

=== FILE: tokens.dfy ===
/** The cryptographic collaborators of the API, modelled symbolically:
    bcrypt password hashing, SHA-256 digests of reset tokens, and signed JSON
    Web Tokens.  Each is a free constructor, so a hash determines what was
    hashed (no collisions) and a token can be verified only with the key it
    was signed with; the real algorithms are outside this model. */
module Tokens {
  import opened Util

  /** A bcrypt hash of `secret` under `salt`.  Its type is not `string`, so a
      stored hash can never be a plaintext password. */
  datatype PasswordHash = Bcrypt(salt: string, secret: string)

  /** `bcrypt.hash(password, salt)`. */
  function HashPassword(password: string, salt: string): PasswordHash {
    Bcrypt(salt, password)
  }

  /** `bcrypt.compare(password, hash)`. */
  predicate ComparePassword(password: string, hash: PasswordHash) {
    hash.secret == password
  }

  /** A hash matches exactly the password it was made from, whatever the salt. */
  lemma CompareHashed(password: string, candidate: string, salt: string)
    ensures ComparePassword(candidate, HashPassword(password, salt)) <==> candidate == password
  {
  }

  /** The hex SHA-256 digest of a string. */
  datatype Digest = Sha256(preimage: string)

  /** The claim set of a session token: the user's id and email, issued-at
      and expiry, both in whole seconds (section 4.1.4 of RFC 7519). */
  datatype Claims = Claims(id: nat, email: string, iat: nat, exp: nat)

  /** A token signed with `key`. */
  datatype Jwt = Jwt(claims: Claims, key: string)

  /** The signing secret: the configured value when set and non-empty,
      otherwise the development fallback "secret". */
  function SigningKey(configured: Option<string>): (key: string)
    ensures key != ""
    ensures configured.Some? && configured.value != "" ==> key == configured.value
    ensures configured.None? || configured.value == "" ==> key == "secret"
  {
    if configured.Some? && configured.value != "" then configured.value else "secret"
  }

  /** Seconds since the epoch, as the token library reads the clock. */
  function Seconds(nowMs: nat): nat {
    nowMs / 1000
  }

  /** `jwt.sign(claims, key, { expiresIn: '1h' })` at time `nowMs`. */
  function SignForOneHour(id: nat, email: string, key: string, nowMs: nat): (t: Jwt)
    ensures t.claims.iat == Seconds(nowMs) && t.claims.exp == t.claims.iat + 3600
    ensures t.claims.id == id && t.claims.email == email && t.key == key
  {
    Jwt(Claims(id, email, Seconds(nowMs), Seconds(nowMs) + 3600), key)
  }

  /** `jwt.verify(token, key)` at time `nowMs`: the signature must be made
      with `key` and the token is expired once the clock reaches `exp`. */
  function Verify(token: Jwt, key: string, nowMs: nat): (r: Option<Claims>)
    ensures r.Some? <==> token.key == key && Seconds(nowMs) < token.claims.exp
    ensures r.Some? ==> r.value == token.claims
  {
    if token.key == key && Seconds(nowMs) < token.claims.exp then Some(token.claims) else None
  }

  /** A token signed for one hour verifies, with the key it was signed with,
      exactly until 3600 seconds after its issue second; it never verifies
      with another key. */
  lemma OneHourValidity(id: nat, email: string, key: string, issuedMs: nat, nowMs: nat, key': string)
    ensures (Verify(SignForOneHour(id, email, key, issuedMs), key, nowMs).Some?
             <==> Seconds(nowMs) < Seconds(issuedMs) + 3600)
    ensures nowMs >= issuedMs + 3600000 ==> Verify(SignForOneHour(id, email, key, issuedMs), key, nowMs).None?
    ensures nowMs + 999 < issuedMs + 3600000 ==> Verify(SignForOneHour(id, email, key, issuedMs), key, nowMs).Some?
    ensures key' != key ==> Verify(SignForOneHour(id, email, key, issuedMs), key', nowMs).None?
  {
    var t := SignForOneHour(id, email, key, issuedMs);
    assert nowMs >= issuedMs + 3600000 ==> Seconds(nowMs) >= Seconds(issuedMs) + 3600 by {
      if nowMs >= issuedMs + 3600000 { DivMonotone(issuedMs + 3600000, nowMs); }
    }
    assert nowMs + 999 < issuedMs + 3600000 ==> Seconds(nowMs) < Seconds(issuedMs) + 3600 by {
      if nowMs + 999 < issuedMs + 3600000 { DivMonotone(nowMs + 999, issuedMs + 3600000); }
    }
  }

  lemma DivMonotone(a: nat, b: nat)
    requires a <= b
    ensures a / 1000 <= b / 1000
    ensures (a + 3600000) / 1000 == a / 1000 + 3600
  {
  }
}

=== FILE: user_schema.dfy ===
/** The stored user record and the constraints the document schema puts on
    it: the name is required, trimmed and at most 120 characters; the email is
    required, lower-cased, trimmed and unique; the password hash is required;
    avatar and the two reset fields are optional; createdAt defaults to the
    creation time. */
module UserSchema {
  import opened Util
  import opened Text
  import opened Tokens

  type UserId = nat

  datatype User = User(
    id: UserId,
    name: string,
    email: string,
    passwordHash: PasswordHash,
    avatarUrl: Option<string>,
    resetPasswordToken: Option<Digest>,
    resetPasswordExpires: Option<nat>,   // milliseconds since the epoch
    createdAt: nat)

  const NAME_MAX_LENGTH: nat := 120

  /** The email setters `lowercase` and `trim`, in declaration order.  They
      are applied both to stored values and to query filters on `email`. */
  function NormalizeEmail(email: string): (e: string)
    ensures |e| <= |email|
    ensures e == "" <==> IsBlank(email)
    ensures IsNormalEmail(e)
  {
    NormalFormFacts(email);
    Trim(Lower(email))
  }

  /** Lower-casing then trimming keeps nothing but the email's characters,
      is empty only for a blank email and leaves no capital letter. */
  lemma NormalFormFacts(email: string)
    ensures |Trim(Lower(email))| <= |email|
    ensures Trim(Lower(email)) == "" <==> IsBlank(email)
    ensures IsLower(Trim(Lower(email)))
  {
    var lower := Lower(email);
    assert |lower| == |email|;
    TrimKeepsLower(lower);
    LowerKeepsBlank(email);
  }

  /** The stored email is the input lower-cased with the white space at both
      ends, and only there, removed: it starts where the input's leading
      white space ends, and each of its characters is the lower-cased
      character at the same place in the input. */
  lemma NormalizeEmailValue(email: string)
    ensures var e, i := NormalizeEmail(email), LeadingSpace(email);
            && (forall k :: 0 <= k < i ==> IsSpace(email[k]))
            && i + |e| <= |email|
            && (forall k :: 0 <= k < |e| ==> e[k] == LowerChar(email[i + k]))
            && (forall k :: i + |e| <= k < |email| ==> IsSpace(email[k]))
  {
    TrimLowerValue(email);
  }

  /** What the email setters leave: trimmed and lower-case. */
  predicate IsNormalEmail(e: string) {
    IsTrimmed(e) && IsLower(e)
  }

  /** A normal email is its own normal form. */
  lemma NormalEmailIsFixed(e: string)
    requires IsNormalEmail(e)
    ensures NormalizeEmail(e) == e
  {
    TrimKeepsTrimmed(e);
  }

  /** Normalising an email twice is normalising it once. */
  lemma NormalizeEmailIdempotent(email: string)
    ensures NormalizeEmail(NormalizeEmail(email)) == NormalizeEmail(email)
  {
    NormalEmailIsFixed(NormalizeEmail(email));
  }

  /** The schema's per-document rules, as they hold of a saved user. */
  predicate Conforms(u: User) {
    && u.name != "" && |u.name| <= NAME_MAX_LENGTH && IsTrimmed(u.name)
    && u.email != "" && IsNormalEmail(u.email)
  }

  predicate IdsUnique(users: seq<User>) {
    forall i, j :: 0 <= i < j < |users| ==> users[i].id != users[j].id
  }

  /** The unique index on `email`. */
  predicate EmailsUnique(users: seq<User>) {
    forall i, j :: 0 <= i < j < |users| ==> users[i].email != users[j].email
  }

  predicate Consistent(users: seq<User>) {
    IdsUnique(users) && EmailsUnique(users)
    && forall i :: 0 <= i < |users| ==> Conforms(users[i])
  }

  /** `User.create({ name, email, passwordHash })`: the setters run, then the
      validators; None when a validator rejects the document. */
  function CreateUser(id: UserId, name: string, email: string, hash: PasswordHash, now: nat): (r: Option<User>)
    ensures r.Some? <==> !IsBlank(name) && |Trim(name)| <= NAME_MAX_LENGTH && !IsBlank(email)
    ensures r.Some? ==> Conforms(r.value)
    ensures r.Some? ==> r.value.id == id && r.value.name == Trim(name) && r.value.email == NormalizeEmail(email)
    ensures r.Some? ==> r.value.passwordHash == hash && r.value.createdAt == now
    ensures r.Some? ==> r.value.avatarUrl.None? && r.value.resetPasswordToken.None? && r.value.resetPasswordExpires.None?
  {
    var n := Trim(name);
    var e := NormalizeEmail(email);
    if n == "" || |n| > NAME_MAX_LENGTH || e == "" then None
    else
      Some(User(id, n, e, hash, None, None, None, now))
  }

  /** Appending a conforming user with a fresh id and an email no stored
      user has keeps the collection consistent. */
  lemma InsertKeepsConsistent(users: seq<User>, u: User)
    requires Consistent(users) && Conforms(u)
    requires forall k :: 0 <= k < |users| ==> users[k].id != u.id && users[k].email != u.email
    ensures Consistent(users + [u])
  {
    var users' := users + [u];
    assert forall k :: 0 <= k < |users| ==> users'[k] == users[k];
  }

  /** Replacing a user by one with the same id, name and email keeps the
      collection consistent. */
  lemma ReplaceKeepsConsistent(users: seq<User>, i: nat, u: User)
    requires Consistent(users) && i < |users|
    requires u.id == users[i].id && u.name == users[i].name && u.email == users[i].email
    ensures Consistent(users[i := u])
  {
    assert Conforms(u) == Conforms(users[i]);
  }
}

=== FILE: util.dfy ===
/** Small shared vocabulary: optional values, first-match search over a
    sequence, and HTTP replies (status code plus a route-specific body). */
module Util {

  datatype Option<+T> = None | Some(value: T) {
    function GetOr(default: T): T {
      match this
      case Some(v) => v
      case None => default
    }
  }

  /** Index of the first element of `s` that satisfies `p`, as a document
      store's `findOne` returns the first match in its natural order. */
  function FindIndex<T>(s: seq<T>, p: T -> bool): (r: Option<nat>)
    ensures r.Some? ==> r.value < |s| && p(s[r.value])
    ensures r.Some? ==> forall k :: 0 <= k < r.value ==> !p(s[k])
    ensures r.None? <==> forall k :: 0 <= k < |s| ==> !p(s[k])
    decreases |s|
  {
    if |s| == 0 then None
    else if p(s[0]) then Some(0)
    else match FindIndex(s[1..], p)
      case None => None
      case Some(i) => Some(i + 1)
  }

  /** Status codes used by the API. */
  const OK: int := 200
  const CREATED: int := 201
  const BAD_REQUEST: int := 400
  const UNAUTHORIZED: int := 401
  const FORBIDDEN: int := 403
  const NOT_FOUND: int := 404
  const CONFLICT: int := 409
  const INTERNAL_ERROR: int := 500

  /** An HTTP response: a status code and a JSON body. */
  datatype Reply<+B> = Reply(status: int, body: B)
}
